=== FILE: README.md ===
# BandMates core, modelled in Dafny

BandMates is a small social platform backend for musicians and bands. It is an
Express application that uses a SQLite store and server-side sessions. This
project models the decision logic of its route handlers and of two client
scripts:

- registration (`POST /signup`) and the client code that builds its payload;
- session handling (`POST /login`, `GET /logout`, and the session-based routing
  of `GET /login`, `/home` and `/area-personale`);
- the chat routes (`/chat`, `/users/list`, and `/chat/start`, which finds or
  creates the room for a pair of users) and the client-side search filter and
  `startChat` check;
- the admin routes (`isAdmin`, `/admin/users`, both `/admin/delete-user/:id`
  routes, `/admin/feedback`, and the reachable `/admin/users/edit/:id` pair).

Each handler is a pure function. It takes the request, the session and the
store, and returns a `Reply`: the response, the session afterwards, and the
store afterwards. The store is an immutable value with four tables: USERS,
MUSICIANS, BANDS and CHAT_ROOMS. Each table maps a row id to a row and keeps a
counter for fresh ids. `db.get` becomes `Store.Find`, which returns the matching
row with the smallest id.

Things the handlers cannot see are parameters:

- Store errors: the set `faults` names the store calls that fail in a given run.
- `validateEmail`: its answer is the boolean `emailValid`.
- `bcrypt.hash`: its output is the string `hashed`.
- `bcrypt.compare`: a function parameter `compare`.
- `new Date()`: the string `now`.

Layout, one module per source file:

- `common.dfy`: `Common`. Optional values, JavaScript truthiness, lower-casing and `includes`, `parseInt`, SQLite integer affinity.
- `store.dfy`: `Store`. The tables, the rows, the failure steps, and first-match lookup.
- `http.dfy`: `Http`. The session, responses, and client actions.
- `auth.dfy`: `Auth`. The `isAdmin` middleware.
- `api.dfy`, `api_props.dfy`: `Api`, `ApiProps`. The routes of routes/api.js.
- `chat.dfy`, `chat_props.dfy`: `Chat`, `ChatProps`. The routes of routes/chat.js.
- `admin.dfy`, `admin_props.dfy`: `Admin`, `AdminProps`. The routes of routes/admin.js.
- `chat_client.dfy`: `ChatClient`. The code in public/js/chat.js.
- `signup_client.dfy`: `SignupClient`. The code in public/js/signup.js.
- `scenario.dfy`: `Scenario`. One register → chat → delete run with concrete values.

## Where the code falls short of what it appears to intend

The model follows the code as written. Each gap below is proved as a property of
the model:

- Registration is not atomic. The handler runs two INSERTs with no transaction
  (routes/api.js:104-139). When the profile insert fails, the answer is 500 and the
  USERS row stays (`Api.Signup`, the ensures on a `ProfileInsert` failure).
- Logout does not end the session. The route's own documentation
  (routes/api.js:324) says it ends the active session. `/logout` clears only
  `loggedIn`, and `isAdmin` reads only `role`, so a logged-out admin session still
  passes the admin gate (`ApiProps.LogoutKeepsAdminGate`).
- `/chat/start` has no login check. Its guard is `userId === currentUserId`
  (routes/chat.js:40):
  - A caller without a session id and a body without `userId` get the 400
    self-chat answer.
  - Any other body from such a caller, `null` included, binds NULL as the sender.
    It inserts a room and answers 500, because the re-select never matches NULL
    (`ChatProps.AnonymousChatStart`).
- `/chat/start` can open a room between a user and themselves. `===` tells the
  number 2 from the string "2", but the INTEGER id columns do not. User 2 posting
  `{"userId": "2"}` therefore gets a room joining 2 with 2
  (`ChatProps.SpelledOwnIdOpensSelfRoom`). A form-encoded body carries every id as
  a string.
- Deletion does not cascade. The deletes of the user's messages and chat rooms
  are commented out (routes/admin.js:48-67), so only the USERS row goes. The
  profile row and the rooms stay (`Admin.DeleteUser`,
  `AdminProps.DeleteKeepsProfilesListed`, `Scenario.RegisterChatDelete`).
- `startChat` never loads the room. It pushes `/chat?room=<id>` and then calls
  `loadChatRoom`, which public/js/chat.js defines only inside the block comment
  at lines 85-200. Unless another script of the page defines it, every
  successful start ends in an error alert (`ChatClient.StartChatFollowsServer`).
- The reachable `POST /admin/users/edit/:id` has no role check and no `isAdmin`
  (`AdminProps.EditSubmitIgnoresSession`).
- The email uniqueness check and the room lookup are check-then-insert
  sequences. The model proves their guarantees for one sequential call each
  (`ApiProps.SignupKeepsEmailsUnique`, `ChatProps.ChatStartKeepsRoomsWellFormed`).

## Model

| member | source | states |
|---|---|---|
| `Auth.IsAdmin` | middleware/auth.js:1-7 | Calls `next` exactly when the session role is "admin". Otherwise it answers 403 with the fixed JSON error. |
| `Auth.Guarded` | middleware/auth.js:2-6 | A route behind `isAdmin` gives the handler's reply for an admin. For anyone else it gives the 403 denial, with session and store untouched. |
| `Auth.IsAdminReadsOnlyRole` | middleware/auth.js:2 | The gate's decision depends on the role only. `loggedIn`, the user id, the name and the type play no part. |
| `Store.FirstKey` | routes/chat.js:45-48 | A first-match lookup returns the smallest matching id. If it finds none, no row in range matches. |
| `Store.Find` | routes/chat.js:45-48 | `db.get` returns the matching row with the smallest id, and `None` exactly when no row matches. |
| `Store.FirstKeyAgrees` | routes/chat.js:45-48 | Two WHERE clauses that agree on every row select the same row. |
| `Store.FindAfterInsert` | routes/chat.js:56-65 | After inserting a matching row into a table that had none, a lookup finds the new row. |
| `Store.UserByEmail` | routes/api.js:253-264 | The USERS lookup by email finds a row with that email, or reports that no row has it. |
| `Common.ParseInt` | routes/admin.js:35-39 | A number comes out of `parseInt` exactly when, after white space, a sign and any `0x` prefix, the text starts with a digit of the selected base. `"0x"` alone is NaN. |
| `Common.ParseIntPrefix` | routes/admin.js:35 | `parseInt` reads the longest decimal prefix and ignores what follows. White space, an optional minus, the digits of `n` and any text not starting with a digit give `n` or `-n`. A lone `0` followed by `x` is excluded, because it starts a hex literal. |
| `Common.ParseIntDecimalExamples` | routes/admin.js:35 | `"5abc"` parses to 5 and `" -12 "` to -12. |
| `Common.ParseIntHexExamples` | routes/admin.js:35 | `"0x10"` parses to 16 and `"0x"` to NaN. |
| `Common.SqlInteger` | routes/admin.js:20 | A text id takes SQLite's INTEGER affinity exactly when it is a non-empty string of decimal digits. |
| `Common.Lower` | public/js/chat.js:39-42 | `toLowerCase` keeps the length and lowers each character on its own. |
| `Common.ParseIntRoundTrip` | routes/admin.js:35 | `parseInt` of the decimal text of any integer gives back that integer. |
| `Common.SqlIntegerRoundTrip` | routes/admin.js:20 | A decimal id passed as text selects the row with that integer id. |
| `Api.Signup` | routes/api.js:57-148 | The checks run in a fixed order and the first failure wins with 400: missing field, short password, bad type, invalid email, missing instrument or genre. Every 400 leaves the store unchanged. A known email gets "Email già registrata". A failed hash, email check or USERS insert answers 500 and writes nothing. A failed profile insert answers 500 and keeps the new USERS row, so nothing is rolled back. It is the only failure that changes the store. Success happens exactly when all checks pass, there are no faults and the email is new. It then adds one USERS row and one profile row in the table for the type, whose `user_id` is the new id, and answers with that id. |
| `ApiProps.SignupKeepsProfilesPointBack` | routes/api.js:104-139 | Registration keeps every profile row pointing at a user id the USERS counter has already handed out. |
| `Api.LoginPage` | routes/api.js:173-179 | GET /login redirects to /home exactly when the session is logged in. Otherwise it serves the login page. |
| `Api.ProfileOf` | routes/api.js:290-310 | A musician's details come from MUSICIANS. Any other type's details come from BANDS. A found row is a row of that table whose `user_id` is the user's. The result is empty exactly when no row of that table has that `user_id`. |
| `Api.Login` | routes/api.js:241-317 | A missing body or field answers 400. A failed lookup answers 500 before anything else, with the session unchanged. A throwing compare answers 500. An unknown email answers 401 "Credenziali errate". For a known email, a password that does not match answers the same 401 and leaves the session alone. A password that matches binds the session to that row's id, name, type and role. An admin then gets the dashboard. Anyone else gets the home page with the profile `ProfileOf` selects, or 500 when that lookup fails. Every 400 and 401 leaves the session unchanged. The store never changes. |
| `Api.Logout` | routes/api.js:350-353 | Sets `loggedIn` to false, keeps user id, name, type and role, and redirects to /login. |
| `Api.PersonalArea` | routes/api.js:386-405 | Redirects to /login exactly when not logged in. A logged-in admin is redirected to /admin/dashboard. Anyone else gets the personal area with the session's name, type and role. |
| `Api.Home` | routes/api.js:424-443 | Redirects to /login exactly when not logged in. When logged in it renders "admin/home" for the admin role and "home" otherwise, with the session's name, type and role. |
| `ApiProps.SignupKeepsEmailsUnique` | routes/api.js:94-105 | One sequential signup never creates a second USERS row with an existing email. |
| `ApiProps.SignupSameEmailTwice` | routes/api.js:94-101 | After one signup succeeds, a second valid signup with the same email answers 400 "Email già registrata" and changes nothing. |
| `ApiProps.SignupThenLogin` | routes/api.js:253-278 | After a signup, a login with the same email and password succeeds, provided `bcrypt.compare` accepts the password against its own hash. The session then holds the new id, name and type, and an unset role. |
| `ApiProps.NewUserFoundByEmail` | routes/api.js:253-256 | After a signup, the login's email lookup finds exactly the new USERS row. |
| `ApiProps.SignupThenLoginShowsProfile` | routes/api.js:290-310 | After a signup, the login's home page shows the profile row the signup wrote, as long as every profile row points at an issued user id. |
| `ApiProps.LoginNoEnumeration` | routes/api.js:262-271 | An unknown email and a known email with a wrong password give identical responses and leave the session unchanged. |
| `ApiProps.LogoutClosesPages` | routes/api.js:350-353 | After logout, /home, /area-personale and /chat redirect to /login, and GET /login serves the page. |
| `ApiProps.LogoutKeepsAdminGate` | middleware/auth.js:2-3 | After logout, an admin session still passes `isAdmin`. |
| `ApiProps.LoginThenLoginPage` | routes/api.js:173-179 | After a successful login, GET /login redirects to /home. |
| `Chat.ChatPage` | routes/chat.js:6-15 | Redirects to /login exactly when not logged in. Otherwise it renders the chat view with the session's name, type and role. |
| `Chat.Summaries` | routes/chat.js:24-30 | The listing holds exactly the USERS rows other than the caller, as `{user_id, full_name, email}`, in increasing id order. |
| `Chat.UsersList` | routes/chat.js:17-32 | A session without a truthy user id gets 401. A store error gives 500. Otherwise the list holds one `{user_id, full_name, email}` entry per USERS row other than the caller, copied from that row, in strictly increasing id order, and nothing else. |
| `Chat.ExistingRoom` | routes/chat.js:45-48 | Finds a room whose sender and receiver match the two bound ids, in either order, or reports that none does. NULL matches nothing. |
| `Chat.CreatedRoom` | routes/chat.js:62-65 | Finds a room with this sender and this receiver, or reports that none exists. NULL matches nothing. |
| `Chat.ChatStart` | routes/chat.js:34-77 | The body's `userId` may be absent, `null`, a number or a string. The 400 self-chat answer comes exactly when it is `===` the session id, and then nothing is written. Otherwise, an existing room for the pair, in either order, is returned and nothing is written. With no such room, exactly one room is inserted, with sender the caller and receiver the target as the INTEGER columns store them. Its id is returned when neither id is NULL, and otherwise the answer is 500. A failed re-select answers 500 and keeps the row. A failed lookup or insert answers 500 and writes nothing. A returned id always names a room joining the two. |
| `ChatProps.ChatStartKeepsRoomsWellFormed` | routes/chat.js:40-69 | Every call keeps two rules, unless the body spells the caller's own id as a string: no room joins a known user with itself, and there is at most one room per unordered pair of known users. |
| `ChatProps.SpelledOwnIdOpensSelfRoom` | routes/chat.js:40-69 | User `m` posting its own id as a string passes the `===` guard. It gets a new room joining `m` with `m`, which breaks the room invariant. |
| `ChatProps.JoinsSymmetric` | routes/chat.js:45-48 | The either-order lookup gives the same room for (A, B) and (B, A). |
| `ChatProps.ChatStartAnswerIsFirstRoom` | routes/chat.js:45-69 | For any body, the room a 200 answer returns is the first room joining the pair in the resulting store. |
| `ChatProps.ChatStartStable` | routes/chat.js:45-69 | After start(A, B) returns room R, both start(A, B) and start(B, A) return R and write nothing. Resolution is idempotent and order-independent. |
| `ChatProps.AnonymousChatStart` | routes/chat.js:34-72 | With no user id in the session, a body without `userId` gets the 400 self-chat answer and writes nothing. Any other body inserts a room with a NULL sender and answers 500. |
| `Admin.AllProfiles` | routes/admin.js:8 | The union holds exactly the MUSICIANS rows and the BANDS rows, each with its id. |
| `Admin.AdminUsers` | routes/admin.js:7-15 | Behind `isAdmin`, it answers 200 exactly for an admin with no store error, and the body is every profile row. A failed query answers an admin with 500 "Errore nel recupero degli utenti". It is read-only. |
| `Admin.UserKey` | routes/admin.js:20 | The text id selects the USERS row whose integer id it spells, if there is one. |
| `Admin.ShowUser` | routes/admin.js:17-32 | Behind `isAdmin` and read-only. A failed query answers an admin with 500 and the fetch error message. Otherwise it answers 404 when no row matches, and 200 with the row when one does. |
| `Admin.DeleteUser` | routes/admin.js:34-100 | Behind `isAdmin`. An id that `parseInt` makes NaN answers 400, with no transaction and whatever the faults. A failed BEGIN answers 500 "Errore del server". A failed DELETE answers 500 "Errore nell'eliminazione dell'utente". A failed COMMIT answers 500 "Errore nel confermare l'eliminazione". An absent id answers 404. Every answer other than 200 leaves the store exactly as it was. Success removes exactly that USERS row, changes no other table, and answers with `deletedUserId` = id. |
| `Admin.Feedback` | routes/admin.js:102-114 | Anyone whose role is not "admin" gets 403 "Accesso negato". For an admin, a failed query answers 500 "Errore nel recupero feedback", and otherwise the answer is the feedback page. It answers 200 exactly for an admin with no store error. |
| `Admin.EditRow` | routes/admin.js:120-124 | The edit lookup yields a MUSICIANS or BANDS row whose id is the one the text spells. It yields nothing exactly when neither table has that id. |
| `Admin.EditUserPage` | routes/admin.js:116-133 | A non-admin gets 403. For an admin, a store error or a missing row gives 404. An existing row gives 200 with the edit view of that row. |
| `Admin.UpdateRow` | routes/admin.js:143-147 | The UPDATE rewrites only the row whose id is the key, if there is one, and leaves every other row, every key and the id counter as they were. |
| `Admin.EditUserSubmit` | routes/admin.js:135-151 | A missing fullName or email answers 400. With both present, a failed UPDATE answers 500 "Errore nella modifica" and changes nothing. Every answer other than the redirect leaves the store unchanged. The redirect updates only the matching row of MUSICIANS when userType is "musician", and of BANDS otherwise. |
| `AdminProps.DeleteByDecimalPrefix` | routes/admin.js:35-96 | A DELETE whose id is decimal digits followed by non-digit text, such as `/admin/delete-user/5abc`, removes exactly the user the digits name. |
| `AdminProps.DeleteByDecimalId` | routes/admin.js:35-96 | A DELETE of `/admin/delete-user/<id>` written in decimal removes exactly that user. |
| `AdminProps.DeleteTwice` | routes/admin.js:70-83 | Repeating a successful delete answers 404 and changes nothing. |
| `AdminProps.DeleteThenShow` | routes/admin.js:17-32 | After a delete, the read-only lookup of the same id answers 404. |
| `AdminProps.EditSubmitIgnoresSession` | routes/admin.js:135-151 | The edit submit gives the same response and store whatever the session holds. |
| `AdminProps.OwnRoleChecksMatchGate` | routes/admin.js:102-133 | `/admin/feedback`, the edit page and `/admin/users` answer 403 exactly for the sessions `isAdmin` denies. |
| `AdminProps.SignupListedForAdmin` | routes/admin.js:7-15 | After a signup, `/admin/users` lists the profiles it listed before plus the new profile row, and nothing else. |
| `AdminProps.DeleteKeepsProfilesListed` | routes/admin.js:48-70 | A delete leaves the `/admin/users` answer unchanged, so the deleted user's profile row is still listed. |
| `AdminProps.EditThenEditPage` | routes/admin.js:116-147 | After the submit renames musician row `k`, the edit page for `k` shows that row with the new name and email. |
| `ChatClient.Filter` | public/js/chat.js:38-45 | The result is a subsequence of the users, in the original order. Each user is kept, as often as it occurs, exactly when its lowercased name or email contains the lowercased term. |
| `ChatClient.FilterEmptyTerm` | public/js/chat.js:39-43 | An empty term keeps every user. |
| `ChatClient.FilterSameLowerTerm` | public/js/chat.js:39-43 | Terms with the same lowercase form give the same result. |
| `ChatClient.FilterIgnoresCase` | public/js/chat.js:39 | Terms that differ only in the case of letters give the same result. |
| `ChatClient.StartChatOutcome` | public/js/chat.js:57-68 | An OK answer with a truthy `chatRoomId` pushes `/chat?room=<id>` and then alerts "loadChatRoom is not defined", because public/js/chat.js defines that function only inside the block comment at lines 85-200. Any other answer alerts with the server's error, the default text, or the missing-id text. |
| `ChatClient.RoomUrlNamesRoom` | public/js/chat.js:77 | The id in the pushed URL reads back as the room it names. |
| `ChatClient.StartChatFollowsServer` | public/js/chat.js:47-82 | Every 200 from `/chat/start` pushes the URL of exactly the room the server resolved and then ends in the `loadChatRoom` error alert; the page never loads the room. Every other answer alerts with the server's message. |
| `SignupClient.BuildPayload` | public/js/signup.js:5-29 | `instrument` and `skillLevel` are blank unless the type is "musician", and `experience` always equals `skillLevel`. `genre` and `looking_for` are blank unless the type is "band". Type, name (as `full_name`), email, password, description and location pass through unchanged. |
| `SignupClient.SignupOutcome` | public/js/signup.js:41-51 | The page goes to /login exactly when the answer is OK. Otherwise it alerts with the server's `error`. A failed fetch gives the connection alert. |
| `SignupClient.BandFormNeedsNoInstrument` | public/js/signup.js:9-14 | A band form is never refused for a missing instrument. |
| `SignupClient.SignupFollowsServer` | public/js/signup.js:41-47 | The page moves to /login exactly when the server stored the registration. Otherwise it shows the server's message. |
| `SignupClient.MusicianFormRegisters` | public/js/signup.js:5-29 | A complete musician form with a new, valid email registers, and its profile row carries the instrument and the skill level as `experience`. |
| `Scenario.AliceRegisters` | routes/api.js:104-125 | On an empty store, a musician signup gets id 1 and writes exactly its USERS and MUSICIANS rows. |
| `Scenario.RiotRegisters` | routes/api.js:128-137 | A band signup gets the next id and writes exactly its USERS and BANDS rows. |
| `Scenario.AliceLogsIn` | routes/api.js:274-278 | Logging in binds the session to the user's row. |
| `Scenario.AliceOpensRoom` | routes/chat.js:56-69 | The first chat between the two inserts room 1. |
| `Scenario.RiotFindsSameRoom` | routes/chat.js:45-53 | The reverse direction returns room 1 and writes nothing. |
| `Scenario.AdminDeletesAlice` | routes/admin.js:69-96 | Deleting the musician removes only the USERS row. |
| `Scenario.RegisterChatDelete` | routes/admin.js:48-70 | End to end: both directions resolve to one room. The delete leaves the musician's profile row and the room in place. |

## Left out

- Concurrency: the check-then-insert races in `/signup` and `/chat/start` cannot occur in a sequential model, so uniqueness is proved per call.
- The session cookie, its 24-hour expiry and the session store (app.js configuration). A session is a plain value.
- The middleware order in app.js. The four routers are mounted (app.js:18-21) before `session(...)` (app.js:25) and before the body parsers (app.js:40-42). As wired, `req.session` and `req.body` are therefore undefined in every handler. The model gives every handler a populated session and a parsed body.
- The database schema and query engine (config/database is not part of this model). Three choices stand in for it:
  - a counter hands out row ids and never hands out an id again. SQLite's default rowid is the largest id plus one, so after the newest user is deleted the next registration gets the same id back. With no cascade (routes/admin.js:48-67), that user inherits the old profile row and chat rooms. `Store.ProfilesPointBack` and `ApiProps.SignupThenLoginShowsProfile` rely on the counter and would not survive such a delete otherwise;
  - rollback is taken to restore the store exactly;
  - the USERS `role` column default is an unset value.
- `bcrypt` and the external email check are parameters, not computations.
- View rendering, `sendFile`, HTTP content types and `console` logging. A response is a status plus a body value. JSON errors, plain-text errors and the rendered `error` view all become `Message`.
- The rows of the `feedback` table: `/admin/feedback` is modelled only for its role check and error path.
- `/bands` and `/bands/rock`: plain read queries.
- The DOM work in public/js/chat.js and public/js/signup.js, including list rendering, modals and history, and the commented-out socket code. public/js/admin.js is DOM rendering only.
- The unreachable second `/admin/users/edit/:id` pair (routes/admin.js:153-190), the commented-out cascade (routes/admin.js:48-67), and the trailing `listen` calls.
- `Common.Lower`: lowers ASCII letters only, while JavaScript's `toLowerCase` also folds other Unicode letters.
- `Common.ParseInt`: does not model the loss of precision beyond 2^53, the `Infinity` from very long digit strings, or the Unicode space separators other than U+00A0 (U+1680, U+2000 to U+200A, U+202F, U+205F, U+3000).
- `Common.SqlInteger`: gives integer affinity only to plain digit strings. SQLite also converts signed or space-padded integer text, and decimal or exponent text with an integral value such as "2.0" or "2e0".
- `ChatProps.ChatStartKeepsRoomsWellFormed`: its exception covers only a plain digit string equal to the caller's id. Because of the `Common.SqlInteger` gap, a caller 2 posting "+2", " 2", "2.0" or "2e0" also opens a (2, 2) room in SQLite, which the model stores as a text id instead.
- `Api.Signup`: measures the password length in code points. JavaScript counts UTF-16 code units. Body fields are strings or absent; other JSON values are not modelled. This hides that a numeric `password` has no `.length`, so the length check at routes/api.js:66 lets it through. The same holds for `Api.Login` and `Admin.EditUserSubmit`.
- `Api.Signup`, `Api.Login`, `Api.LoginPage`: routes/api.js:1-4 imports neither `bcrypt` nor `path`, and defines no `validateEmail`. The model treats all three as defined. As written, `/signup` throws at routes/api.js:76, outside any try, so it sends no response once the 400 checks pass. A login with a known email throws at routes/api.js:268 and answers 500, which is the model's `PasswordCompare` fault. A logged-out `GET /login` throws at routes/api.js:177.
- `Admin.EditRow`: picks the MUSICIANS row when both tables hold the id, because SQL leaves the order of a UNION unspecified.
- `Chat.ChatStart`: a body `userId` is modelled as absent, `null`, an integer or a string. Fractional numbers, booleans, objects and arrays are not modelled. The CHAT_ROOMS id columns are taken to have INTEGER affinity.
- `Api.Login`: the `loggedIn: true` flag the views receive is left out of the page data; the same holds for `Api.Home` and `Api.PersonalArea`.

=== FILE: admin.dfy ===
/** The admin routes of routes/admin.js. Of the two `/admin/users/edit/:id` handler
    pairs, only the first registered pair is reachable: Express dispatches to the
    first matching handler, and that handler always answers. */
module Admin {
  import opened Common
  import opened Store
  import opened Http
  import opened Auth

  const MsgListProfiles: string := "Errore nel recupero degli utenti"
  const MsgUserFetch: string := "Errore durante il recupero delle informazioni dell'utente"
  const MsgBadId: string := "ID utente non valido"
  const MsgServer: string := "Errore del server"
  const MsgDeleteError: string := "Errore nell'eliminazione dell'utente"
  const MsgCommitError: string := "Errore nel confermare l'eliminazione"
  const MsgFeedbackError: string := "Errore nel recupero feedback"
  const MsgDenied: string := "Accesso negato"
  const MsgEditNotFound: string := "Utente non trovato"
  const MsgEditFields: string := "Tutti i campi sono obbligatori."
  const MsgEditError: string := "Errore nella modifica"

  /** The 404 text of `GET /admin/delete-user/:id`, built from the raw path parameter. */
  function MsgNoSuchUser(idParam: string): string {
    "Utente con ID " + idParam + " non trovato."
  }

  /** The 404 text of `DELETE /admin/delete-user/:id`, built from the parsed id. */
  function MsgUserMissing(id: int): string {
    "Utente con ID " + IntToString(id) + " non trovato"
  }

  function MsgUserDeleted(id: int): string {
    "Utente con ID " + IntToString(id) + " eliminato con successo"
  }

  // ---------------------------------------------------------------------------
  // GET /admin/users
  // ---------------------------------------------------------------------------

  /** `SELECT * FROM musicians UNION SELECT * FROM bands`. */
  function AllProfiles(store: Store): (ps: set<Profile>)
    ensures forall p :: p in ps <==>
              || (p.MusicianProfile? && p.id in store.musicians.rows && p.musician == store.musicians.rows[p.id])
              || (p.BandProfile? && p.id in store.bands.rows && p.band == store.bands.rows[p.id])
  {
    (set k | k in store.musicians.rows :: MusicianProfile(k, store.musicians.rows[k]))
    + (set k | k in store.bands.rows :: BandProfile(k, store.bands.rows[k]))
  }

  /** `GET /admin/users`, behind `isAdmin`. */
  function AdminUsers(session: Session, store: Store, faults: set<Step>): (r: Reply)
    ensures r.session == session && r.store == store
    ensures session.role != Some(AdminRole) ==> r.response == Fail(403, MsgAdminOnly)
    ensures session.role == Some(AdminRole) && ListProfiles in faults
            ==> r.response == Fail(500, MsgListProfiles)
    ensures r.response.status == 200 <==> session.role == Some(AdminRole) && ListProfiles !in faults
    ensures r.response.status == 200 ==> r.response.body == ProfileRows(AllProfiles(store))
  {
    Guarded(session, store,
      if ListProfiles in faults then Reply(Fail(500, MsgListProfiles), session, store)
      else Reply(Response(200, ProfileRows(AllProfiles(store))), session, store))
  }

  // ---------------------------------------------------------------------------
  // GET /admin/delete-user/:id
  // ---------------------------------------------------------------------------

  /** The USERS row a text id parameter selects through SQLite's integer affinity. */
  function UserKey(store: Store, idParam: string): (k: Option<nat>)
    ensures k.Some? ==> k.value in store.users.rows && SqlInteger(idParam) == k
    ensures k.None? ==> SqlInteger(idParam).None? || SqlInteger(idParam).value !in store.users.rows
  {
    match SqlInteger(idParam)
    case Some(k) => if k in store.users.rows then Some(k) else None
    case None => None
  }

  /** `GET /admin/delete-user/:id`, behind `isAdmin`: read-only despite its path. */
  function ShowUser(idParam: string, session: Session, store: Store, faults: set<Step>): (r: Reply)
    ensures r.session == session && r.store == store
    ensures session.role != Some(AdminRole) ==> r.response == Fail(403, MsgAdminOnly)
    ensures session.role == Some(AdminRole) && UserFetch in faults ==> r.response == Fail(500, MsgUserFetch)
    ensures session.role == Some(AdminRole) && UserFetch !in faults && UserKey(store, idParam).None?
            ==> r.response == Fail(404, MsgNoSuchUser(idParam))
    ensures r.response.status == 200 <==>
            session.role == Some(AdminRole) && UserFetch !in faults && UserKey(store, idParam).Some?
    ensures r.response.status == 200 ==>
            && r.response.body.UserRecord?
            && SqlInteger(idParam) == Some(r.response.body.userId)
            && r.response.body.userId in store.users.rows
            && r.response.body.user == store.users.rows[r.response.body.userId]
  {
    Guarded(session, store,
      if UserFetch in faults then Reply(Fail(500, MsgUserFetch), session, store)
      else
        match UserKey(store, idParam)
        case None => Reply(Fail(404, MsgNoSuchUser(idParam)), session, store)
        case Some(k) => Reply(Response(200, UserRecord(k, store.users.rows[k])), session, store))
  }

  // ---------------------------------------------------------------------------
  // DELETE /admin/delete-user/:id
  // ---------------------------------------------------------------------------

  predicate HasUser(store: Store, id: int) {
    id >= 0 && id as nat in store.users.rows
  }

  /** The store after `DELETE FROM USERS WHERE user_id = id` is committed. */
  function WithoutUser(store: Store, id: nat): (s: Store)
    requires store.Valid()
    ensures s.Valid()
  {
    store.(users := store.users.(rows := store.users.rows - {id}))
  }

  /** The steps inside the transaction, after `parseInt` succeeded. A 0-row delete,
      a failed DELETE and a failed COMMIT all roll back to the store as it was. */
  function DeleteInTransaction(id: int, session: Session, store: Store, faults: set<Step>): (r: Reply)
    requires store.Valid()
  {
    if Begin in faults then Reply(Fail(500, MsgServer), session, store)
    else if DeleteRow in faults then Reply(Fail(500, MsgDeleteError), session, store)
    else if !HasUser(store, id) then Reply(Fail(404, MsgUserMissing(id)), session, store)
    else if Commit in faults then Reply(Fail(500, MsgCommitError), session, store)
    else Reply(Response(200, Deleted(MsgUserDeleted(id), id)), session, WithoutUser(store, id as nat))
  }

  /** `DELETE /admin/delete-user/:id`, behind `isAdmin`. */
  function DeleteUser(idParam: string, session: Session, store: Store, faults: set<Step>): (r: Reply)
    requires store.Valid()
    ensures r.session == session && r.store.Valid()
    ensures session.role != Some(AdminRole) ==> r.response == Fail(403, MsgAdminOnly) && r.store == store
    // A parameter parseInt turns into NaN is refused before any transaction starts.
    ensures session.role == Some(AdminRole) && ParseInt(idParam).None?
            ==> r == Reply(Fail(400, MsgBadId), session, store)
    // A failed BEGIN, DELETE or COMMIT answers 500 and rolls back.
    ensures session.role == Some(AdminRole) && ParseInt(idParam).Some? && Begin in faults
            ==> r == Reply(Fail(500, MsgServer), session, store)
    ensures session.role == Some(AdminRole) && ParseInt(idParam).Some? && Begin !in faults && DeleteRow in faults
            ==> r == Reply(Fail(500, MsgDeleteError), session, store)
    ensures session.role == Some(AdminRole) && ParseInt(idParam).Some? && Begin !in faults && DeleteRow !in faults
            && HasUser(store, ParseInt(idParam).value) && Commit in faults
            ==> r == Reply(Fail(500, MsgCommitError), session, store)
    // An id with no USERS row rolls back with 404.
    ensures session.role == Some(AdminRole) && ParseInt(idParam).Some? && Begin !in faults && DeleteRow !in faults
            && !HasUser(store, ParseInt(idParam).value)
            ==> r.response == Fail(404, MsgUserMissing(ParseInt(idParam).value))
    // Every answer but 200 leaves the store exactly as it was.
    ensures r.response.status != 200 ==> r.store == store
    ensures r.response.status == 200 <==>
            && session.role == Some(AdminRole) && ParseInt(idParam).Some?
            && HasUser(store, ParseInt(idParam).value) && faults !! {Begin, DeleteRow, Commit}
    // Success removes exactly that USERS row; no other table changes.
    ensures r.response.status == 200 ==>
            var id := ParseInt(idParam).value;
            && r.response.body == Deleted(MsgUserDeleted(id), id)
            && id as nat !in r.store.users.rows
            && store.users.rows.Keys - r.store.users.rows.Keys == {id as nat}
            && (forall k :: k in r.store.users.rows ==> k in store.users.rows && r.store.users.rows[k] == store.users.rows[k])
            && r.store.musicians == store.musicians && r.store.bands == store.bands
            && r.store.chatRooms == store.chatRooms
  {
    Guarded(session, store,
      match ParseInt(idParam)
      case None => Reply(Fail(400, MsgBadId), session, store)
      case Some(id) => DeleteInTransaction(id, session, store, faults))
  }

  // ---------------------------------------------------------------------------
  // GET /admin/feedback and the reachable /admin/users/edit/:id pair
  // ---------------------------------------------------------------------------

  /** `GET /admin/feedback`: its own role check, answering 403 in plain text. */
  function Feedback(session: Session, store: Store, faults: set<Step>): (r: Reply)
    ensures r.session == session && r.store == store
    ensures session.role != Some(AdminRole) ==> r.response == Fail(403, MsgDenied)
    ensures session.role == Some(AdminRole) && FeedbackFetch in faults ==> r.response == Fail(500, MsgFeedbackError)
    ensures session.role == Some(AdminRole) && FeedbackFetch !in faults
            ==> r.response == Response(200, Page("admin/feedback", Plain))
    ensures r.response.status == 200 <==> session.role == Some(AdminRole) && FeedbackFetch !in faults
  {
    if session.role == Some(AdminRole) then
      if FeedbackFetch in faults then Reply(Fail(500, MsgFeedbackError), session, store)
      else Reply(Response(200, Page("admin/feedback", Plain)), session, store)
    else Reply(Fail(403, MsgDenied), session, store)
  }

  /** The profile row the edit page's UNION query yields for a text id: a MUSICIANS
      row with that id, else a BANDS row with that id. */
  function EditRow(store: Store, idParam: string): (p: Option<Profile>)
    ensures p.Some? ==> SqlInteger(idParam) == Some(p.value.id)
    ensures p.Some? && p.value.MusicianProfile? ==> p.value.id in store.musicians.rows && p.value.musician == store.musicians.rows[p.value.id]
    ensures p.Some? && p.value.BandProfile? ==> p.value.id in store.bands.rows && p.value.band == store.bands.rows[p.value.id]
    ensures p.None? <==>
              || SqlInteger(idParam).None?
              || (SqlInteger(idParam).value !in store.musicians.rows && SqlInteger(idParam).value !in store.bands.rows)
  {
    match SqlInteger(idParam)
    case None => None
    case Some(k) =>
      if k in store.musicians.rows then Some(MusicianProfile(k, store.musicians.rows[k]))
      else if k in store.bands.rows then Some(BandProfile(k, store.bands.rows[k]))
      else None
  }

  /** `GET /admin/users/edit/:id` (the first registered handler). */
  function EditUserPage(idParam: string, session: Session, store: Store, faults: set<Step>): (r: Reply)
    ensures r.session == session && r.store == store
    ensures session.role != Some(AdminRole) ==> r.response == Fail(403, MsgDenied)
    ensures session.role == Some(AdminRole) && (EditFetch in faults || EditRow(store, idParam).None?)
            ==> r.response == Fail(404, MsgEditNotFound)
    ensures session.role == Some(AdminRole) && EditFetch !in faults && EditRow(store, idParam).Some?
            ==> r.response == Response(200, Page("admin/editUser", EditTarget(EditRow(store, idParam).value)))
    ensures r.response.status == 200 ==>
            && session.role == Some(AdminRole) && EditRow(store, idParam).Some?
            && r.response.body == Page("admin/editUser", EditTarget(EditRow(store, idParam).value))
  {
    if session.role == Some(AdminRole) then
      if EditFetch in faults then Reply(Fail(404, MsgEditNotFound), session, store)
      else
        match EditRow(store, idParam)
        case None => Reply(Fail(404, MsgEditNotFound), session, store)
        case Some(p) => Reply(Response(200, Page("admin/editUser", EditTarget(p))), session, store)
    else Reply(Fail(403, MsgDenied), session, store)
  }

  /** The form body of `POST /admin/users/edit/:id`. */
  datatype EditForm = EditForm(fullName: Option<string>, email: Option<string>, userType: Option<string>)

  /** `UPDATE ... SET full_name = ?, email = ? WHERE id = key` on one table: the row
      with that key, if any, is rewritten by `change`; every other row and every key
      stays as it was. */
  function UpdateRow<R>(t: Table<R>, key: Option<nat>, change: R -> R): (t': Table<R>)
    ensures t'.next == t.next && t'.rows.Keys == t.rows.Keys
    ensures forall k :: k in t.rows ==>
              t'.rows[k] == if key == Some(k) then change(t.rows[k]) else t.rows[k]
  {
    if key.Some? && key.value in t.rows then
      t.(rows := t.rows[key.value := change(t.rows[key.value])])
    else t
  }

  /** `POST /admin/users/edit/:id` (the first registered handler). It makes no role
      check of its own and is not behind `isAdmin`. */
  function EditUserSubmit(idParam: string, form: EditForm, session: Session, store: Store, faults: set<Step>): (r: Reply)
    requires store.Valid()
    ensures r.session == session && r.store.Valid()
    ensures !Truthy(form.fullName) || !Truthy(form.email) ==> r.response == Fail(400, MsgEditFields)
    ensures Truthy(form.fullName) && Truthy(form.email) && EditUpdate in faults
            ==> r == Reply(Fail(500, MsgEditError), session, store)
    ensures r.response.status != 302 ==> r.store == store
    ensures r.response.status == 302 <==> Truthy(form.fullName) && Truthy(form.email) && EditUpdate !in faults
    ensures r.response.status == 302 ==>
            && r.response == Redirect("/admin/users")
            && r.store.users == store.users && r.store.chatRooms == store.chatRooms
            && (form.userType == Some("musician") ==>
                  && r.store.bands == store.bands
                  && r.store.musicians == UpdateRow(store.musicians, SqlInteger(idParam), (m: MusicianRow) => m.(fullName := form.fullName, email := form.email)))
            && (form.userType != Some("musician") ==>
                  && r.store.musicians == store.musicians
                  && r.store.bands == UpdateRow(store.bands, SqlInteger(idParam), (b: BandRow) => b.(fullName := form.fullName, email := form.email)))
  {
    if !Truthy(form.fullName) || !Truthy(form.email) then Reply(Fail(400, MsgEditFields), session, store)
    else if EditUpdate in faults then Reply(Fail(500, MsgEditError), session, store)
    else
      var key := SqlInteger(idParam);
      var store' :=
        if form.userType == Some("musician") then
          store.(musicians := UpdateRow(store.musicians, key, (m: MusicianRow) => m.(fullName := form.fullName, email := form.email)))
        else
          store.(bands := UpdateRow(store.bands, key, (b: BandRow) => b.(fullName := form.fullName, email := form.email)));
      Reply(Redirect("/admin/users"), session, store')
  }
}

=== FILE: admin_props.dfy ===
/** Properties of the admin routes across calls. */
module AdminProps {
  import opened Common
  import opened Store
  import opened Http
  import opened Auth
  import opened Admin
  import opened Api

  /** The path the admin page builds, `/admin/delete-user/${id}`, deletes exactly
      that user. */
  lemma DeleteByDecimalId(id: nat, session: Session, store: Store)
    requires store.Valid() && session.role == Some(AdminRole) && id in store.users.rows
    ensures DeleteUser(NatToString(id), session, store, {})
            == Reply(Response(200, Deleted(MsgUserDeleted(id), id)), session, WithoutUser(store, id))
  {
    ParseIntRoundTrip(id);
    assert IntToString(id) == NatToString(id);
  }

  /** `parseInt` reads only the leading digits, so a path such as
      `/admin/delete-user/5abc` deletes user 5. */
  lemma DeleteByDecimalPrefix(id: nat, rest: string, session: Session, store: Store)
    requires store.Valid() && session.role == Some(AdminRole) && id in store.users.rows
    requires |rest| == 0 || !IsDigit(rest[0])
    ensures DeleteUser(NatToString(id) + rest, session, store, {})
            == Reply(Response(200, Deleted(MsgUserDeleted(id), id)), session, WithoutUser(store, id))
  {
    // Row ids start at 1, so the digits never spell the `0` of a `0x` prefix.
    assert id != 0;
    ParseIntPrefix("", false, id, rest);
    assert "" + "" + NatToString(id) + rest == NatToString(id) + rest;
  }

  /** Deleting the same id again finds no row: 404, and the store is unchanged. */
  lemma DeleteTwice(idParam: string, session: Session, store: Store, faults: set<Step>)
    requires store.Valid()
    requires DeleteUser(idParam, session, store, faults).response.status == 200
    ensures var once := DeleteUser(idParam, session, store, faults).store;
            DeleteUser(idParam, session, once, {})
              == Reply(Fail(404, MsgUserMissing(ParseInt(idParam).value)), session, once)
  {
  }

  /** After a delete, the read-only lookup of the same decimal id answers 404. */
  lemma DeleteThenShow(id: nat, session: Session, store: Store)
    requires store.Valid() && session.role == Some(AdminRole) && id in store.users.rows
    ensures var after := DeleteUser(NatToString(id), session, store, {}).store;
            ShowUser(NatToString(id), session, after, {}).response == Fail(404, MsgNoSuchUser(NatToString(id)))
  {
    DeleteByDecimalId(id, session, store);
    SqlIntegerRoundTrip(id);
  }

  /** The effective edit submit does not look at the session: an anonymous session
      edits exactly as an admin one does. */
  lemma EditSubmitIgnoresSession(idParam: string, form: EditForm, s1: Session, s2: Session,
                                 store: Store, faults: set<Step>)
    requires store.Valid()
    ensures EditUserSubmit(idParam, form, s1, store, faults).response
            == EditUserSubmit(idParam, form, s2, store, faults).response
    ensures EditUserSubmit(idParam, form, s1, store, faults).store
            == EditUserSubmit(idParam, form, s2, store, faults).store
  {
  }

  /** The two handlers with their own role test deny exactly the sessions the
      `isAdmin` middleware denies, though with a different 403 text. */
  lemma OwnRoleChecksMatchGate(idParam: string, session: Session, store: Store, faults: set<Step>)
    ensures Feedback(session, store, faults).response.status == 403 <==> IsAdmin(session).Deny?
    ensures EditUserPage(idParam, session, store, faults).response.status == 403 <==> IsAdmin(session).Deny?
    ensures AdminUsers(session, store, faults).response.status == 403 <==> IsAdmin(session).Deny?
  {
  }

  /** After a registration, `/admin/users` lists exactly the profiles it listed
      before plus the new profile row. */
  lemma SignupListedForAdmin(req: SignupRequest, session: Session, store: Store, emailValid: bool, hashed: string)
    requires store.Valid()
    requires Signup(req, session, store, emailValid, hashed, {}).response.status == 200
    ensures var s1 := Signup(req, session, store, emailValid, hashed, {}).store;
            AllProfiles(s1) == AllProfiles(store) + {RegisteredProfile(req, store)}
  {
    var s1 := Signup(req, session, store, emailValid, hashed, {}).store;
    if req.userType.value == Musician {
      ProfilesAfterMusicianInsert(store, s1, NewMusician(req, store.users.next));
    } else {
      ProfilesAfterBandInsert(store, s1, NewBand(req, store.users.next));
    }
  }

  lemma ProfilesAfterMusicianInsert(s: Store, t: Store, row: MusicianRow)
    requires s.musicians.next !in s.musicians.rows
    requires t.musicians.rows == s.musicians.rows[s.musicians.next := row] && t.bands.rows == s.bands.rows
    ensures AllProfiles(t) == AllProfiles(s) + {MusicianProfile(s.musicians.next, row)}
  {
    var added := MusicianProfile(s.musicians.next, row);
    forall p
      ensures p in AllProfiles(t) <==> p in AllProfiles(s) + {added}
    {
    }
  }

  lemma ProfilesAfterBandInsert(s: Store, t: Store, row: BandRow)
    requires s.bands.next !in s.bands.rows
    requires t.bands.rows == s.bands.rows[s.bands.next := row] && t.musicians.rows == s.musicians.rows
    ensures AllProfiles(t) == AllProfiles(s) + {BandProfile(s.bands.next, row)}
  {
    var added := BandProfile(s.bands.next, row);
    forall p
      ensures p in AllProfiles(t) <==> p in AllProfiles(s) + {added}
    {
    }
  }

  /** With the cascade commented out, deleting a user does not change what
      `/admin/users` answers: the deleted user's profile row is still listed. */
  lemma DeleteKeepsProfilesListed(idParam: string, session: Session, store: Store, faults: set<Step>,
                                  viewer: Session, faults': set<Step>)
    requires store.Valid()
    ensures var after := DeleteUser(idParam, session, store, faults).store;
            AdminUsers(viewer, after, faults').response == AdminUsers(viewer, store, faults').response
  {
    var after := DeleteUser(idParam, session, store, faults).store;
    assert after.musicians == store.musicians && after.bands == store.bands;
  }

  /** The edit round trip: after the submit renames musician row `k`, the edit page
      for `k` shows that row with the new name and email. */
  lemma EditThenEditPage(k: nat, form: EditForm, session: Session, admin: Session, store: Store)
    requires store.Valid() && admin.role == Some(AdminRole)
    requires k in store.musicians.rows
    requires Truthy(form.fullName) && Truthy(form.email) && form.userType == Some("musician")
    ensures var after := EditUserSubmit(NatToString(k), form, session, store, {}).store;
            EditUserPage(NatToString(k), admin, after, {}).response
              == Response(200, Page("admin/editUser", EditTarget(MusicianProfile(k,
                   store.musicians.rows[k].(fullName := form.fullName, email := form.email)))))
  {
    SqlIntegerRoundTrip(k);
  }
}

=== FILE: api.dfy ===
/** The account routes of routes/api.js: `/signup`, `/login` (GET and POST),
    `/logout`, `/area-personale` and `/home`. Each handler is a pure function from
    the request, the session and the store to a `Reply`. */
module Api {
  import opened Common
  import opened Store
  import opened Http
  import opened Auth

  const Musician: string := "musician"
  const Band: string := "band"
  const MinPasswordLength: nat := 6

  const MsgFieldsRequired: string := "I campi userType, full_name, email, password e location sono obbligatori"
  const MsgPasswordShort: string := "La password deve avere almeno 6 caratteri"
  const MsgBadUserType: string := "Il campo userType deve essere 'musician' o 'band'"
  const MsgBadEmail: string := "L'indirizzo email non è valido."
  const MsgNeedInstrument: string := "Il campo instrument è obbligatorio per i musicisti"
  const MsgNeedGenre: string := "Il campo genre è obbligatorio per le band"
  const MsgInternal: string := "Errore interno del server"
  const MsgEmailCheck: string := "Errore durante il controllo dell'email"
  const MsgEmailTaken: string := "Email già registrata"
  const MsgUserInsert: string := "Errore durante la registrazione dell'utente"
  const MsgMusicianInsert: string := "Errore durante la registrazione del musicista"
  const MsgBandInsert: string := "Errore durante la registrazione della band"
  const MsgMusicianOk: string := "Registrazione avvenuta con successo come musicista"
  const MsgBandOk: string := "Registrazione avvenuta con successo come band"

  const MsgNoBody: string := "Undefined body"
  const MsgLoginFields: string := "Email e password sono obbligatorie"
  const MsgLoginError: string := "Errore durante l'accesso"
  const MsgBadCredentials: string := "Credenziali errate"

  // ---------------------------------------------------------------------------
  // POST /signup
  // ---------------------------------------------------------------------------

  /** The JSON body of `POST /signup`; `None` is a field the body does not carry. */
  datatype SignupRequest = SignupRequest(
    userType: Option<string>,
    fullName: Option<string>,
    email: Option<string>,
    password: Option<string>,
    instrument: Option<string>,
    experience: Option<string>,
    description: Option<string>,
    location: Option<string>,
    lookingFor: Option<string>,
    genre: Option<string>)

  predicate FieldsPresent(req: SignupRequest) {
    Truthy(req.userType) && Truthy(req.fullName) && Truthy(req.email)
    && Truthy(req.password) && Truthy(req.location)
  }

  /** The validation chain, checked in order; the first failing check's message,
      or `None` when the request passes all of them. `emailValid` is what the
      external address check answered for this email. */
  function SignupRejection(req: SignupRequest, emailValid: bool): Option<string> {
    if !FieldsPresent(req) then Some(MsgFieldsRequired)
    else if |req.password.value| < MinPasswordLength then Some(MsgPasswordShort)
    else if req.userType.value != Musician && req.userType.value != Band then Some(MsgBadUserType)
    else if !emailValid then Some(MsgBadEmail)
    else if req.userType.value == Musician && !Truthy(req.instrument) then Some(MsgNeedInstrument)
    else if req.userType.value == Band && !Truthy(req.genre) then Some(MsgNeedGenre)
    else None
  }

  /** The USERS row the first INSERT writes. */
  function NewUser(req: SignupRequest, hashed: string): UserRow
    requires FieldsPresent(req)
  {
    UserRow(req.userType.value, req.fullName.value, req.email.value, hashed, req.location.value, None)
  }

  function NewMusician(req: SignupRequest, userId: nat): MusicianRow
    requires Truthy(req.instrument)
  {
    MusicianRow(userId, req.instrument.value, req.experience, req.description, None, None)
  }

  function NewBand(req: SignupRequest, userId: nat): BandRow
    requires Truthy(req.genre)
  {
    BandRow(userId, req.description, req.lookingFor, req.genre.value, None, None)
  }

  /** The store calls `/signup` can see fail. */
  const SignupSteps: set<Step> := {HashPassword, EmailCheck, UserInsert, ProfileInsert}

  /** `store'` is `store` plus the new USERS row under `id` and its profile row,
      pointing at `id`, in the table the user type selects. The two tables written
      advance their counters by one; every other table is unchanged. */
  predicate RegisteredIn(store: Store, store': Store, req: SignupRequest, hashed: string, id: nat)
    requires store.Valid() && SignupRejection(req, true).None?
  {
    && id == store.users.next
    && id !in store.users.rows
    && store'.users.rows == store.users.rows[id := NewUser(req, hashed)]
    && store'.users.next == id + 1
    && store'.chatRooms == store.chatRooms
    && (req.userType.value == Musician ==>
          && store.musicians.next !in store.musicians.rows
          && store'.musicians.rows == store.musicians.rows[store.musicians.next := NewMusician(req, id)]
          && store'.musicians.next == store.musicians.next + 1
          && store'.bands == store.bands)
    && (req.userType.value == Band ==>
          && store.bands.next !in store.bands.rows
          && store'.bands.rows == store.bands.rows[store.bands.next := NewBand(req, id)]
          && store'.bands.next == store.bands.next + 1
          && store'.musicians == store.musicians)
  }

  /** The profile row registration writes, with the id its table hands out, for a
      request that passed validation. */
  function RegisteredProfile(req: SignupRequest, store: Store): Profile
    requires SignupRejection(req, true).None?
  {
    if req.userType.value == Musician then MusicianProfile(store.musicians.next, NewMusician(req, store.users.next))
    else BandProfile(store.bands.next, NewBand(req, store.users.next))
  }

  /** `POST /signup`. `hashed` is what `bcrypt.hash` returned for the password. */
  function Signup(req: SignupRequest, session: Session, store: Store, emailValid: bool, hashed: string, faults: set<Step>): (r: Reply)
    requires store.Valid()
    ensures r.session == session && r.store.Valid()
    // The checks run in a fixed order and the first failure answers 400.
    ensures !FieldsPresent(req) ==> r.response == Fail(400, MsgFieldsRequired)
    ensures FieldsPresent(req) && |req.password.value| < 6 ==> r.response == Fail(400, MsgPasswordShort)
    ensures FieldsPresent(req) && |req.password.value| >= 6 && req.userType.value !in {Musician, Band}
            ==> r.response == Fail(400, MsgBadUserType)
    ensures FieldsPresent(req) && |req.password.value| >= 6 && req.userType.value in {Musician, Band} && !emailValid
            ==> r.response == Fail(400, MsgBadEmail)
    ensures FieldsPresent(req) && |req.password.value| >= 6 && emailValid
            && req.userType.value == Musician && !Truthy(req.instrument)
            ==> r.response == Fail(400, MsgNeedInstrument)
    ensures FieldsPresent(req) && |req.password.value| >= 6 && emailValid
            && req.userType.value == Band && !Truthy(req.genre)
            ==> r.response == Fail(400, MsgNeedGenre)
    // Every rejection leaves the store as it was.
    ensures r.response.status == 400 ==> r.store == store
    // An email already in USERS is refused and nothing is inserted.
    ensures SignupRejection(req, emailValid).None? && HashPassword !in faults && EmailCheck !in faults
            && UserByEmail(store.users, req.email.value).Some?
            ==> r.response == Fail(400, MsgEmailTaken) && r.store == store
    // Success: one USERS row, one profile row, and the response carries the new id.
    ensures r.response.status == 200 <==>
            SignupRejection(req, emailValid).None? && faults !! SignupSteps
            && UserByEmail(store.users, req.email.value).None?
    ensures r.response.status == 200 ==>
            SignupRejection(req, emailValid).None?
            && r.response.body.Registered? && r.response.body.id == store.users.next
            && RegisteredIn(store, r.store, req, hashed, store.users.next)
    // Store failures before the USERS insert answer 500 and write nothing.
    ensures SignupRejection(req, emailValid).None? && HashPassword in faults
            ==> r.response == Fail(500, MsgInternal) && r.store == store
    ensures SignupRejection(req, emailValid).None? && HashPassword !in faults && EmailCheck in faults
            ==> r.response == Fail(500, MsgEmailCheck) && r.store == store
    ensures SignupRejection(req, emailValid).None? && HashPassword !in faults && EmailCheck !in faults
            && UserByEmail(store.users, req.email.value).None? && UserInsert in faults
            ==> r.response == Fail(500, MsgUserInsert) && r.store == store
    // A failed profile insert answers 500 and is not rolled back: the USERS row stays.
    ensures SignupRejection(req, emailValid).None? && HashPassword !in faults && EmailCheck !in faults && UserInsert !in faults
            && UserByEmail(store.users, req.email.value).None? && ProfileInsert in faults
            ==> && r.response == Fail(500, if req.userType.value == Musician then MsgMusicianInsert else MsgBandInsert)
                && r.store == store.(users := store.users.Insert(NewUser(req, hashed)))
    // It is the only failure that changes the store.
    ensures r.response.status != 200 && r.store != store ==>
            SignupRejection(req, emailValid).None? && ProfileInsert in faults
            && r.response.status == 500
            && r.store == store.(users := store.users.Insert(NewUser(req, hashed)))
  {
    match SignupRejection(req, emailValid)
    case Some(message) => Reply(Fail(400, message), session, store)
    case None =>
      if HashPassword in faults then Reply(Fail(500, MsgInternal), session, store)
      else if EmailCheck in faults then Reply(Fail(500, MsgEmailCheck), session, store)
      else if UserByEmail(store.users, req.email.value).Some? then Reply(Fail(400, MsgEmailTaken), session, store)
      else if UserInsert in faults then Reply(Fail(500, MsgUserInsert), session, store)
      else
        var userId := store.users.next;
        var withUser := store.(users := store.users.Insert(NewUser(req, hashed)));
        if req.userType.value == Musician then
          if ProfileInsert in faults then Reply(Fail(500, MsgMusicianInsert), session, withUser)
          else
            var done := withUser.(musicians := store.musicians.Insert(NewMusician(req, userId)));
            Reply(Response(200, Registered(MsgMusicianOk, userId)), session, done)
        else
          if ProfileInsert in faults then Reply(Fail(500, MsgBandInsert), session, withUser)
          else
            var done := withUser.(bands := store.bands.Insert(NewBand(req, userId)));
            Reply(Response(200, Registered(MsgBandOk, userId)), session, done)
  }

  // ---------------------------------------------------------------------------
  // GET /login, POST /login, GET /logout
  // ---------------------------------------------------------------------------

  /** `GET /login`: a logged-in session goes to /home, any other gets the login page. */
  function LoginPage(session: Session, store: Store): (r: Reply)
    ensures r.session == session && r.store == store
    ensures r.response == Redirect("/home") <==> session.loggedIn
    ensures !session.loggedIn ==> r.response == Response(200, Page("login.html", Plain))
  {
    if session.loggedIn then Reply(Redirect("/home"), session, store)
    else Reply(Response(200, Page("login.html", Plain)), session, store)
  }

  /** The JSON body of `POST /login`. */
  datatype Credentials = Credentials(email: Option<string>, password: Option<string>)

  /** The session after a successful login: the USERS row's id, name, type and role
      copied in, every field written. */
  function SignedIn(session: Session, userId: nat, user: UserRow): Session {
    session.(loggedIn := true, userId := Some(userId), fullName := Some(user.fullName),
             userType := Some(user.userType), role := user.role)
  }

  /** The profile row `/login` shows a non-admin: MUSICIANS for a musician, BANDS otherwise. */
  function ProfileOf(store: Store, userId: nat, user: UserRow): (p: Option<Profile>)
    requires store.Valid()
    ensures user.userType == Musician ==>
              && (p.None? <==> forall k :: k in store.musicians.rows ==> store.musicians.rows[k].userId != userId)
              && (p.Some? ==> && p.value.MusicianProfile? && p.value.id in store.musicians.rows
                              && p.value.musician == store.musicians.rows[p.value.id]
                              && p.value.musician.userId == userId)
    ensures user.userType != Musician ==>
              && (p.None? <==> forall k :: k in store.bands.rows ==> store.bands.rows[k].userId != userId)
              && (p.Some? ==> && p.value.BandProfile? && p.value.id in store.bands.rows
                              && p.value.band == store.bands.rows[p.value.id]
                              && p.value.band.userId == userId)
  {
    if user.userType == Musician then
      match Find(store.musicians, (m: MusicianRow) => m.userId == userId)
      case Some(k) => Some(MusicianProfile(k, store.musicians.rows[k]))
      case None => None
    else
      match Find(store.bands, (b: BandRow) => b.userId == userId)
      case Some(k) => Some(BandProfile(k, store.bands.rows[k]))
      case None => None
  }

  /** `POST /login`. `compare` is `bcrypt.compare(password, storedHash)`. */
  function Login(body: Option<Credentials>, session: Session, store: Store,
                 compare: (string, string) -> bool, faults: set<Step>): (r: Reply)
    requires store.Valid()
    ensures r.store == store
    ensures body.None? ==> r.response == Fail(400, MsgNoBody)
    ensures body.Some? && !(Truthy(body.value.email) && Truthy(body.value.password))
            ==> r.response == Fail(400, MsgLoginFields)
    // An unknown email and a wrong password give the same answer.
    ensures body.Some? && Truthy(body.value.email) && Truthy(body.value.password) && UserLookup !in faults
            && UserByEmail(store.users, body.value.email.value).None?
            ==> r.response == Fail(401, MsgBadCredentials)
    ensures r.response.status == 401 ==> r.response == Fail(401, MsgBadCredentials)
    // Every failure before the password matched leaves the session alone.
    ensures r.response.status in {400, 401} ==> r.session == session
    ensures r.response.status == 500 && DetailsLookup !in faults ==> r.session == session
    // Success: the session now carries the matching USERS row.
    ensures r.session != session || r.response.status == 200 ==>
            && body.Some? && Truthy(body.value.email) && Truthy(body.value.password)
            && UserByEmail(store.users, body.value.email.value).Some?
            && var id := UserByEmail(store.users, body.value.email.value).value;
               && compare(body.value.password.value, store.users.rows[id].password)
               && r.session == SignedIn(session, id, store.users.rows[id])
    // A failed lookup or a throwing compare answers 500.
    ensures body.Some? && Truthy(body.value.email) && Truthy(body.value.password) && UserLookup in faults
            ==> r == Reply(Fail(500, MsgLoginError), session, store)
    ensures body.Some? && Truthy(body.value.email) && Truthy(body.value.password) && UserLookup !in faults
            && UserByEmail(store.users, body.value.email.value).Some? && PasswordCompare in faults
            ==> r.response == Fail(500, MsgLoginError) && r.session == session
    // For a known email, the password decides: a match signs in, a mismatch is 401.
    ensures body.Some? && Truthy(body.value.email) && Truthy(body.value.password)
            && UserLookup !in faults && PasswordCompare !in faults
            && UserByEmail(store.users, body.value.email.value).Some?
            ==> var id := UserByEmail(store.users, body.value.email.value).value;
                var user := store.users.rows[id];
                && (!compare(body.value.password.value, user.password) ==>
                      r.response == Fail(401, MsgBadCredentials) && r.session == session)
                && (compare(body.value.password.value, user.password) ==>
                      r.session == SignedIn(session, id, user))
                && (compare(body.value.password.value, user.password) && user.role == Some(AdminRole) ==>
                      r.response == Response(200, Page("admin/dashboard", SessionWho(r.session))))
                && (compare(body.value.password.value, user.password) && user.role != Some(AdminRole)
                      && DetailsLookup !in faults ==>
                      r.response == Response(200, Page("home", WithDetails(Some(user.fullName), Some(user.userType),
                                                                               user.role, ProfileOf(store, id, user)))))
                && (compare(body.value.password.value, user.password) && user.role != Some(AdminRole)
                      && DetailsLookup in faults ==>
                      r.response == Fail(500, MsgLoginError))
    ensures r.response.status == 200 && r.session.role == Some(AdminRole) ==>
            r.response.body == Page("admin/dashboard", SessionWho(r.session))
    ensures r.response.status == 200 && r.session.role != Some(AdminRole) ==>
            r.response.body.Page? && r.response.body.view == "home"
  {
    if body.None? then Reply(Fail(400, MsgNoBody), session, store)
    else
      var email := body.value.email;
      var password := body.value.password;
      if !Truthy(email) || !Truthy(password) then Reply(Fail(400, MsgLoginFields), session, store)
      else if UserLookup in faults then Reply(Fail(500, MsgLoginError), session, store)
      else
        match UserByEmail(store.users, email.value)
        case None => Reply(Fail(401, MsgBadCredentials), session, store)
        case Some(id) =>
          var user := store.users.rows[id];
          if PasswordCompare in faults then Reply(Fail(500, MsgLoginError), session, store)
          else if !compare(password.value, user.password) then Reply(Fail(401, MsgBadCredentials), session, store)
          else
            var session' := SignedIn(session, id, user);
            if user.role == Some(AdminRole) then
              Reply(Response(200, Page("admin/dashboard", Who(Some(user.fullName), Some(user.userType), user.role))),
                    session', store)
            else if DetailsLookup in faults then Reply(Fail(500, MsgLoginError), session', store)
            else
              Reply(Response(200, Page("home", WithDetails(Some(user.fullName), Some(user.userType), user.role,
                                                           ProfileOf(store, id, user)))),
                    session', store)
  }

  /** `GET /logout`: only `loggedIn` is cleared. */
  function Logout(session: Session, store: Store): (r: Reply)
    ensures r.response == Redirect("/login") && r.store == store
    ensures !r.session.loggedIn
    ensures r.session.userId == session.userId && r.session.fullName == session.fullName
            && r.session.userType == session.userType && r.session.role == session.role
  {
    Reply(Redirect("/login"), session.(loggedIn := false), store)
  }

  // ---------------------------------------------------------------------------
  // GET /area-personale, GET /home
  // ---------------------------------------------------------------------------

  /** `GET /area-personale`. */
  function PersonalArea(session: Session, store: Store): (r: Reply)
    ensures r.session == session && r.store == store
    ensures r.response == Redirect("/login") <==> !session.loggedIn
    ensures session.loggedIn ==>
            (r.response == Redirect("/admin/dashboard") <==> session.role == Some(AdminRole))
    ensures session.loggedIn && session.role != Some(AdminRole) ==>
            r.response == Response(200, Page("areapersonale", SessionWho(session)))
  {
    if !session.loggedIn then Reply(Redirect("/login"), session, store)
    else if session.role == Some(AdminRole) then Reply(Redirect("/admin/dashboard"), session, store)
    else Reply(Response(200, Page("areapersonale", SessionWho(session))), session, store)
  }

  /** `GET /home`. */
  function Home(session: Session, store: Store): (r: Reply)
    ensures r.session == session && r.store == store
    ensures r.response == Redirect("/login") <==> !session.loggedIn
    ensures session.loggedIn ==>
            r.response == Response(200, Page(if session.role == Some(AdminRole) then "admin/home" else "home",
                                             SessionWho(session)))
  {
    if session.loggedIn then
      if session.role == Some(AdminRole) then Reply(Response(200, Page("admin/home", SessionWho(session))), session, store)
      else Reply(Response(200, Page("home", SessionWho(session))), session, store)
    else Reply(Redirect("/login"), session, store)
  }
}

=== FILE: api_props.dfy ===
/** Properties that relate several calls of the account routes. */
module ApiProps {
  import opened Common
  import opened Store
  import opened Http
  import opened Auth
  import opened Api
  import opened Chat

  /** One sequential `/signup` never puts a second row with the same email in USERS. */
  lemma SignupKeepsEmailsUnique(req: SignupRequest, session: Session, store: Store,
                                emailValid: bool, hashed: string, faults: set<Step>)
    requires store.Valid() && EmailsUnique(store.users)
    ensures EmailsUnique(Signup(req, session, store, emailValid, hashed, faults).store.users)
  {
    var r := Signup(req, session, store, emailValid, hashed, faults);
    if r.store.users != store.users {
      var e := req.email.value;
      assert UserByEmail(store.users, e).None?;
      var id := store.users.next;
      forall i, j | i in r.store.users.rows && j in r.store.users.rows && i != j
        ensures r.store.users.rows[i].email != r.store.users.rows[j].email
      {
        if i == id {
          assert j in store.users.rows;
        } else if j == id {
          assert i in store.users.rows;
        } else {
          assert i in store.users.rows && j in store.users.rows;
        }
      }
    }
  }

  /** Registering the same email twice: the second call is refused with 400 and
      inserts nothing. */
  lemma SignupSameEmailTwice(req: SignupRequest, req2: SignupRequest, session: Session, store: Store,
                             emailValid: bool, hashed: string, hashed2: string, faults2: set<Step>)
    requires store.Valid()
    requires Signup(req, session, store, emailValid, hashed, {}).response.status == 200
    requires SignupRejection(req2, emailValid).None? && req2.email == req.email
    requires HashPassword !in faults2 && EmailCheck !in faults2
    ensures var s1 := Signup(req, session, store, emailValid, hashed, {}).store;
            Signup(req2, session, s1, emailValid, hashed2, faults2) == Reply(Fail(400, MsgEmailTaken), session, s1)
  {
    var s1 := Signup(req, session, store, emailValid, hashed, {}).store;
    var id := store.users.next;
    assert s1.users.rows[id].email == req.email.value;
    assert UserByEmail(s1.users, req2.email.value).Some?;
  }

  /** Registration keeps every profile row pointing at an issued user id. */
  lemma SignupKeepsProfilesPointBack(req: SignupRequest, session: Session, store: Store,
                                     emailValid: bool, hashed: string, faults: set<Step>)
    requires store.Valid() && ProfilesPointBack(store)
    ensures ProfilesPointBack(Signup(req, session, store, emailValid, hashed, faults).store)
  {
    var r := Signup(req, session, store, emailValid, hashed, faults);
    if r.store != store {
      assert r.store.users.next == store.users.next + 1;
      var id := store.users.next;
      if r.response.status == 200 {
        assert forall k :: k in r.store.musicians.rows ==> k in store.musicians.rows || r.store.musicians.rows[k].userId == id;
        assert forall k :: k in r.store.bands.rows ==> k in store.bands.rows || r.store.bands.rows[k].userId == id;
      }
    }
  }

  /** A user who has just registered can log in with the same email and password
      (given that `bcrypt.compare` accepts the password against its own hash), and
      the session is bound to the new USERS row. */
  lemma SignupThenLogin(req: SignupRequest, session: Session, store: Store, emailValid: bool,
                        hashed: string, compare: (string, string) -> bool, later: Session)
    requires store.Valid()
    requires Signup(req, session, store, emailValid, hashed, {}).response.status == 200
    requires compare(req.password.value, hashed)
    ensures var s1 := Signup(req, session, store, emailValid, hashed, {}).store;
            var r := Login(Some(Credentials(req.email, req.password)), later, s1, compare, {});
            && r.response.status == 200
            && r.session.loggedIn
            && r.session.userId == Some(store.users.next)
            && r.session.fullName == req.fullName
            && r.session.userType == req.userType
            && r.session.role == None
  {
    NewUserFoundByEmail(req, session, store, emailValid, hashed);
  }

  /** After a registration, the email lookup finds the new USERS row. */
  lemma NewUserFoundByEmail(req: SignupRequest, session: Session, store: Store, emailValid: bool, hashed: string)
    requires store.Valid()
    requires Signup(req, session, store, emailValid, hashed, {}).response.status == 200
    ensures var s1 := Signup(req, session, store, emailValid, hashed, {}).store;
            && UserByEmail(s1.users, req.email.value) == Some(store.users.next)
            && s1.users.rows[store.users.next] == NewUser(req, hashed)
  {
    var s1 := Signup(req, session, store, emailValid, hashed, {}).store;
    var e := req.email.value;
    var user := NewUser(req, hashed);
    assert UserByEmail(store.users, e).None?;
    assert s1.users == store.users.Insert(user);
    FindAfterInsert(store.users, user, (u: UserRow) => u.email == e);
  }

  /** ... and, as long as no profile row points at an id not yet handed out, the
      home page the login renders shows the profile row that registration wrote. */
  lemma SignupThenLoginShowsProfile(req: SignupRequest, session: Session, store: Store, emailValid: bool,
                                    hashed: string, compare: (string, string) -> bool, later: Session)
    requires store.Valid() && ProfilesPointBack(store)
    requires Signup(req, session, store, emailValid, hashed, {}).response.status == 200
    requires compare(req.password.value, hashed)
    ensures var s1 := Signup(req, session, store, emailValid, hashed, {}).store;
            Login(Some(Credentials(req.email, req.password)), later, s1, compare, {}).response
              == Response(200, Page("home", WithDetails(req.fullName, req.userType, None,
                                                        Some(RegisteredProfile(req, store)))))
  {
    var s1 := Signup(req, session, store, emailValid, hashed, {}).store;
    var id := store.users.next;
    NewUserFoundByEmail(req, session, store, emailValid, hashed);
    if req.userType.value == Musician {
      var row := NewMusician(req, id);
      assert s1.musicians == store.musicians.Insert(row);
      FindAfterInsert(store.musicians, row, (m: MusicianRow) => m.userId == id);
    } else {
      var row := NewBand(req, id);
      assert s1.bands == store.bands.Insert(row);
      FindAfterInsert(store.bands, row, (b: BandRow) => b.userId == id);
    }
  }

  /** Login does not reveal whether an email is registered: an unknown email and a
      known email with the wrong password get identical responses, and neither
      touches the session. */
  lemma LoginNoEnumeration(email: string, password: string, session: Session,
                           unknown: Store, known: Store, compare: (string, string) -> bool)
    requires unknown.Valid() && known.Valid()
    requires email != "" && password != ""
    requires UserByEmail(unknown.users, email).None?
    requires UserByEmail(known.users, email).Some?
    requires !compare(password, known.users.rows[UserByEmail(known.users, email).value].password)
    ensures var body := Some(Credentials(Some(email), Some(password)));
            var a := Login(body, session, unknown, compare, {});
            var b := Login(body, session, known, compare, {});
            a.response == b.response == Fail(401, MsgBadCredentials)
            && a.session == b.session == session
  {
  }

  /** After `/logout`, `/home`, `/area-personale` and `/chat` send the client to
      /login ... */
  lemma LogoutClosesPages(session: Session, store: Store)
    ensures var out := Logout(session, store);
            Home(out.session, out.store).response == Redirect("/login")
            && PersonalArea(out.session, out.store).response == Redirect("/login")
            && ChatPage(out.session, out.store).response == Redirect("/login")
            && LoginPage(out.session, out.store).response.status == 200
  {
  }

  /** ... but `isAdmin` still lets a logged-out admin session through, because
      logout clears `loggedIn` and the gate reads `role` only. */
  lemma LogoutKeepsAdminGate(session: Session, store: Store)
    requires session.role == Some(AdminRole)
    ensures IsAdmin(Logout(session, store).session).Next?
  {
  }

  /** After a successful login, `GET /login` sends the client on to /home. */
  lemma LoginThenLoginPage(body: Option<Credentials>, session: Session, store: Store,
                           compare: (string, string) -> bool, faults: set<Step>)
    requires store.Valid()
    requires Login(body, session, store, compare, faults).response.status == 200
    ensures var r := Login(body, session, store, compare, faults);
            LoginPage(r.session, r.store).response == Redirect("/home")
  {
  }
}

=== FILE: auth.dfy ===
/** The `isAdmin` middleware (middleware/auth.js). */
module Auth {
  import opened Common
  import opened Store
  import opened Http

  const AdminRole: string := "admin"
  const MsgAdminOnly: string := "Accesso negato. Solo gli admin possono accedere."

  /** What the middleware does: hand the request on, or answer it itself. */
  datatype Gate = Next | Deny(response: Response)

  /** `isAdmin`: passes exactly the sessions whose role is "admin"; every other
      session gets 403 with the fixed JSON error. */
  function IsAdmin(session: Session): (g: Gate)
    ensures g.Next? <==> session.role == Some(AdminRole)
    ensures g.Deny? ==> g.response == Fail(403, MsgAdminOnly)
  {
    if session.role == Some(AdminRole) then Next else Deny(Fail(403, MsgAdminOnly))
  }

  /** A route registered as `router.x(path, isAdmin, handler)`: the handler's reply
      when the middleware calls `next`, otherwise the denial with session and store
      untouched. */
  function Guarded(session: Session, store: Store, handler: Reply): (r: Reply)
    ensures session.role == Some(AdminRole) ==> r == handler
    ensures session.role != Some(AdminRole) ==> r == Reply(Fail(403, MsgAdminOnly), session, store)
  {
    match IsAdmin(session)
    case Next => handler
    case Deny(response) => Reply(response, session, store)
  }

  /** The decision reads the role only: `loggedIn`, `userId`, the name and the type
      play no part. */
  lemma IsAdminReadsOnlyRole(s1: Session, s2: Session)
    requires s1.role == s2.role
    ensures IsAdmin(s1) == IsAdmin(s2)
  {
  }
}

=== FILE: chat.dfy ===
/** The chat routes of routes/chat.js: the `/chat` page, the `/users/list` of chat
    candidates, and `/chat/start`, which finds or creates the room for a pair. */
module Chat {
  import opened Common
  import opened Store
  import opened Http

  const MsgUnauthorized: string := "Non autorizzato"
  const MsgListError: string := "Errore nel recupero utenti"
  const MsgSelfChat: string := "Non puoi avviare una chat con te stesso"
  const MsgInternal: string := "Errore interno del server"
  const MsgRoomCreate: string := "Errore durante la creazione della chat room"

  /** `GET /chat`. */
  function ChatPage(session: Session, store: Store): (r: Reply)
    ensures r.session == session && r.store == store
    ensures r.response == Redirect("/login") <==> !session.loggedIn
    ensures session.loggedIn ==> r.response == Response(200, Page("chat", SessionWho(session)))
  {
    if !session.loggedIn then Reply(Redirect("/login"), session, store)
    else Reply(Response(200, Page("chat", SessionWho(session))), session, store)
  }

  // ---------------------------------------------------------------------------
  // GET /users/list
  // ---------------------------------------------------------------------------

  /** The USERS rows with ids in `[from, bound)` other than `caller`, as
      `{user_id, full_name, email}` in id order. */
  function Summaries(rows: map<nat, UserRow>, caller: int, from: nat, bound: nat): (r: seq<UserSummary>)
    decreases bound - from
    ensures forall i :: 0 <= i < |r| ==>
              && from <= r[i].userId < bound && r[i].userId in rows && r[i].userId != caller
              && r[i] == UserSummary(r[i].userId, rows[r[i].userId].fullName, rows[r[i].userId].email)
    ensures forall i, j :: 0 <= i < j < |r| ==> r[i].userId < r[j].userId
    ensures forall k :: from <= k < bound && k in rows && k != caller ==>
              UserSummary(k, rows[k].fullName, rows[k].email) in r
  {
    if from >= bound then []
    else
      var rest := Summaries(rows, caller, from + 1, bound);
      if from in rows && from != caller then [UserSummary(from, rows[from].fullName, rows[from].email)] + rest
      else rest
  }

  /** `GET /users/list`: every user but the caller, for a session with a user id. */
  function UsersList(session: Session, store: Store, faults: set<Step>): (r: Reply)
    requires store.Valid()
    ensures r.session == session && r.store == store
    ensures !TruthyId(session.userId) ==> r.response == Fail(401, MsgUnauthorized)
    ensures TruthyId(session.userId) && ListUsers in faults ==> r.response == Fail(500, MsgListError)
    ensures r.response.status == 200 <==> TruthyId(session.userId) && ListUsers !in faults
    ensures r.response.status == 200 ==>
              && r.response.body.UserList?
              && var list := r.response.body.users;
                 && (forall i :: 0 <= i < |list| ==>
                       && list[i].userId in store.users.rows && list[i].userId != session.userId.value
                       && list[i] == UserSummary(list[i].userId, store.users.rows[list[i].userId].fullName,
                                                 store.users.rows[list[i].userId].email))
                 && (forall i, j :: 0 <= i < j < |list| ==> list[i].userId < list[j].userId)
                 && (forall k :: k in store.users.rows && k != session.userId.value ==>
                       UserSummary(k, store.users.rows[k].fullName, store.users.rows[k].email) in list)
  {
    if !TruthyId(session.userId) then Reply(Fail(401, MsgUnauthorized), session, store)
    else if ListUsers in faults then Reply(Fail(500, MsgListError), session, store)
    else
      Reply(Response(200, UserList(Summaries(store.users.rows, session.userId.value, 1, store.users.next))),
            session, store)
  }

  // ---------------------------------------------------------------------------
  // POST /chat/start
  // ---------------------------------------------------------------------------

  /** The `userId` field of the JSON body: absent, `null`, a number or a string. */
  datatype BodyId = Missing | JsonNull | JsonNumber(n: int) | JsonString(s: string)

  /** `userId === currentUserId`, where the session id is `undefined` or a number:
      only an absent field against an unset id, or the same number, are equal. */
  predicate StrictEquals(target: BodyId, current: Option<int>) {
    match target
    case Missing => current.None?
    case JsonNumber(n) => current == Some(n)
    case _ => false
  }

  /** The SQL parameter the session's id binds as. */
  function BindSession(current: Option<int>): SqlValue {
    if current.Some? then SqlInt(current.value) else SqlNull
  }

  /** The SQL parameter the body's `userId` binds as. */
  function BindBody(target: BodyId): SqlValue {
    match target
    case Missing => SqlNull
    case JsonNull => SqlNull
    case JsonNumber(n) => SqlInt(n)
    case JsonString(s) => SqlText(s)
  }

  /** The room joins `a` and `b`, in either order (the first SELECT's WHERE clause). */
  predicate Joins(room: ChatRoom, a: SqlValue, b: SqlValue) {
    (SqlMatch(room.sender, a) && SqlMatch(room.receiver, b)) || (SqlMatch(room.sender, b) && SqlMatch(room.receiver, a))
  }

  /** The room was opened by `a` towards `b` (the re-select after the INSERT). */
  predicate OpenedBy(room: ChatRoom, a: SqlValue, b: SqlValue) {
    SqlMatch(room.sender, a) && SqlMatch(room.receiver, b)
  }

  function ExistingRoom(rooms: Table<ChatRoom>, a: SqlValue, b: SqlValue): (r: Option<nat>)
    requires rooms.Valid()
    ensures r.Some? ==> r.value in rooms.rows && Joins(rooms.rows[r.value], a, b)
    ensures r.None? <==> forall k :: k in rooms.rows ==> !Joins(rooms.rows[k], a, b)
  {
    Find(rooms, (room: ChatRoom) => Joins(room, a, b))
  }

  function CreatedRoom(rooms: Table<ChatRoom>, a: SqlValue, b: SqlValue): (r: Option<nat>)
    requires rooms.Valid()
    ensures r.Some? ==> r.value in rooms.rows && OpenedBy(rooms.rows[r.value], a, b)
    ensures r.None? <==> forall k :: k in rooms.rows ==> !OpenedBy(rooms.rows[k], a, b)
  {
    Find(rooms, (room: ChatRoom) => OpenedBy(room, a, b))
  }

  /** The row the INSERT writes: both ids as the INTEGER columns store them. */
  function NewRoom(a: SqlValue, b: SqlValue, now: string): ChatRoom {
    ChatRoom(IntegerAffinity(a), IntegerAffinity(b), now)
  }

  /** The re-select after the INSERT finds the new row exactly when neither id is
      NULL; with no earlier room between the two, it is the new row. */
  lemma ReselectFindsNewRoom(rooms: Table<ChatRoom>, a: SqlValue, b: SqlValue, now: string)
    requires rooms.Valid() && ExistingRoom(rooms, a, b).None?
    ensures CreatedRoom(rooms.Insert(NewRoom(a, b, now)), a, b)
            == if !a.SqlNull? && !b.SqlNull? then Some(rooms.next) else None
  {
    var added := NewRoom(a, b, now);
    if !a.SqlNull? && !b.SqlNull? {
      forall k | k in rooms.rows
        ensures !OpenedBy(rooms.rows[k], a, b)
      {
        assert !Joins(rooms.rows[k], a, b);
      }
      FindAfterInsert(rooms, added, (room: ChatRoom) => OpenedBy(room, a, b));
    } else {
      var t := rooms.Insert(added);
      assert forall k :: k in t.rows ==> !OpenedBy(t.rows[k], a, b);
    }
  }

  /** `POST /chat/start` with body `{userId: target}`. `now` is the creation time
      the handler stamps on a new room. */
  function ChatStart(target: BodyId, session: Session, store: Store, now: string, faults: set<Step>): (r: Reply)
    requires store.Valid()
    ensures r.session == session && r.store.Valid()
    // Only a `===`-equal id is refused as a self-chat, and then nothing is written.
    ensures r.response == Fail(400, MsgSelfChat) <==> StrictEquals(target, session.userId)
    ensures StrictEquals(target, session.userId) ==> r.store == store
    // An existing room for the pair, in either order, is returned as it is.
    ensures !StrictEquals(target, session.userId) && RoomLookup !in faults
            && ExistingRoom(store.chatRooms, BindSession(session.userId), BindBody(target)).Some?
            ==> r.response == Response(200, ChatRoomId(ExistingRoom(store.chatRooms, BindSession(session.userId), BindBody(target)).value))
                && r.store == store
    // With no such room, exactly one room is inserted, sender = caller and receiver =
    // target; the re-select returns its id unless either id is NULL.
    ensures !StrictEquals(target, session.userId) && RoomLookup !in faults && RoomInsert !in faults
            && ExistingRoom(store.chatRooms, BindSession(session.userId), BindBody(target)).None?
            ==> && r.store == store.(chatRooms := store.chatRooms.Insert(NewRoom(BindSession(session.userId), BindBody(target), now)))
                && (RoomReselect in faults ==> r.response == Fail(500, MsgInternal))
                && (RoomReselect !in faults && session.userId.Some? && !BindBody(target).SqlNull? ==>
                      r.response == Response(200, ChatRoomId(store.chatRooms.next)))
                && (RoomReselect !in faults && (session.userId.None? || BindBody(target).SqlNull?) ==>
                      r.response == Fail(500, MsgRoomCreate))
    // A failed lookup or insert writes nothing.
    ensures !StrictEquals(target, session.userId) && (RoomLookup in faults
              || (RoomInsert in faults && ExistingRoom(store.chatRooms, BindSession(session.userId), BindBody(target)).None?))
            ==> r.response == Fail(500, MsgInternal) && r.store == store
    // The store is unchanged, or gains exactly that one room.
    ensures r.store == store
            || r.store == store.(chatRooms := store.chatRooms.Insert(NewRoom(BindSession(session.userId), BindBody(target), now)))
    // Whatever id is returned names a room joining the two.
    ensures r.response.status == 200 ==>
              && r.response.body.ChatRoomId?
              && r.response.body.roomId in r.store.chatRooms.rows
              && Joins(r.store.chatRooms.rows[r.response.body.roomId], BindSession(session.userId), BindBody(target))
  {
    var a := BindSession(session.userId);
    var b := BindBody(target);
    if StrictEquals(target, session.userId) then Reply(Fail(400, MsgSelfChat), session, store)
    else if RoomLookup in faults then Reply(Fail(500, MsgInternal), session, store)
    else
      match ExistingRoom(store.chatRooms, a, b)
      case Some(k) => Reply(Response(200, ChatRoomId(k)), session, store)
      case None =>
        if RoomInsert in faults then Reply(Fail(500, MsgInternal), session, store)
        else
          var store' := store.(chatRooms := store.chatRooms.Insert(NewRoom(a, b, now)));
          if RoomReselect in faults then Reply(Fail(500, MsgInternal), session, store')
          else
            ReselectFindsNewRoom(store.chatRooms, a, b, now);
            match CreatedRoom(store'.chatRooms, a, b)
            case Some(k) => Reply(Response(200, ChatRoomId(k)), session, store')
            case None => Reply(Fail(500, MsgRoomCreate), session, store')
  }

  // ---------------------------------------------------------------------------
  // The room invariant
  // ---------------------------------------------------------------------------

  /** A room between two known users (neither id is NULL). */
  predicate Linked(room: ChatRoom) {
    !room.sender.SqlNull? && !room.receiver.SqlNull?
  }

  /** The same unordered pair. */
  predicate SamePair(x: ChatRoom, y: ChatRoom) {
    (x.sender == y.sender && x.receiver == y.receiver) || (x.sender == y.receiver && x.receiver == y.sender)
  }

  /** No room joins a known user with itself, and no two rooms between known users
      join the same unordered pair. */
  predicate RoomsWellFormed(rooms: Table<ChatRoom>) {
    && (forall k :: k in rooms.rows && Linked(rooms.rows[k]) ==> rooms.rows[k].sender != rooms.rows[k].receiver)
    && (forall i, j :: i in rooms.rows && j in rooms.rows && i != j && Linked(rooms.rows[i]) && Linked(rooms.rows[j])
          ==> !SamePair(rooms.rows[i], rooms.rows[j]))
  }

  /** The body names the caller's own id as a string: `===` tells the two apart,
      but the INTEGER column stores them as the same number. */
  predicate SpellsCaller(target: BodyId, current: Option<int>) {
    target.JsonString? && current.Some?
    && SqlInteger(target.s).Some? && SqlInteger(target.s).value == current.value
  }
}

=== FILE: chat_client.dfy ===
/** The client half of the chat page (public/js/chat.js): the search box that
    filters the candidate list as the user types, and the check `startChat` makes
    on the answer of `/chat/start`. */
module ChatClient {
  import opened Common
  import opened Store
  import opened Http
  import Chat

  /** The filter predicate: the lowercased term occurs in the lowercased name or the
      lowercased email. */
  predicate Matches(u: UserSummary, term: string) {
    Contains(Lower(u.fullName), Lower(term)) || Contains(Lower(u.email), Lower(term))
  }

  /** `a` is `b` with some elements left out, the rest in their original order. */
  predicate IsSubsequence<T(==)>(a: seq<T>, b: seq<T>)
    decreases |b|
  {
    if |a| == 0 then true
    else if |b| == 0 then false
    else if a[0] == b[0] then IsSubsequence(a[1..], b[1..])
    else IsSubsequence(a, b[1..])
  }

  /** `users.filter(user => Matches(user, term))`: the matching users, each as often
      as it occurs, in their original order. */
  function Filter(users: seq<UserSummary>, term: string): (r: seq<UserSummary>)
    ensures IsSubsequence(r, users)
    ensures forall u :: multiset(r)[u] == if Matches(u, term) then multiset(users)[u] else 0
  {
    if |users| == 0 then []
    else
      var rest := Filter(users[1..], term);
      assert users == [users[0]] + users[1..];
      if Matches(users[0], term) then [users[0]] + rest else rest
  }

  lemma {:induction false} FilterEmptyTerm(users: seq<UserSummary>)
    ensures Filter(users, "") == users
  {
    if |users| > 0 {
      ContainsEmpty(Lower(users[0].fullName));
      FilterEmptyTerm(users[1..]);
    }
  }

  /** The two terms differ at most in the case of ASCII letters. */
  predicate SameUpToCase(a: string, b: string) {
    && |a| == |b|
    && forall i :: 0 <= i < |a| ==>
         || a[i] == b[i]
         || (IsUpper(a[i]) && b[i] == a[i] + 32 as char)
         || (IsUpper(b[i]) && a[i] == b[i] + 32 as char)
  }

  lemma {:induction false} FilterSameLowerTerm(users: seq<UserSummary>, t1: string, t2: string)
    requires Lower(t1) == Lower(t2)
    ensures Filter(users, t1) == Filter(users, t2)
  {
    if |users| > 0 {
      FilterSameLowerTerm(users[1..], t1, t2);
    }
  }

  /** Terms that differ only in letter case select the same users. */
  lemma FilterIgnoresCase(users: seq<UserSummary>, t1: string, t2: string)
    requires SameUpToCase(t1, t2)
    ensures Filter(users, t1) == Filter(users, t2)
  {
    assert Lower(t1) == Lower(t2);
    FilterSameLowerTerm(users, t1, t2);
  }

  // ---------------------------------------------------------------------------
  // startChat
  // ---------------------------------------------------------------------------

  const MsgStartPrefix: string := "Errore nell'avvio della chat: "
  const MsgStartDefault: string := "Errore nell'avvio della chat"
  /** `'ID della chat room non ricevuto dal server' + result`, where `result` is an
      object and so prints as `[object Object]`. */
  const MsgNoRoomId: string := "ID della chat room non ricevuto dal server[object Object]"

  /** The `chatRoomId` field of a JSON answer, when it has one. */
  function RoomIdField(r: Response): Option<int> {
    if r.body.ChatRoomId? then Some(r.body.roomId) else None
  }

  /** `/chat?room=${id}`, the URL `startChat` pushes for a resolved room. */
  const RoomUrlPrefix: string := "/chat?room="

  function RoomUrl(roomId: int): string {
    RoomUrlPrefix + IntToString(roomId)
  }

  /** The `ReferenceError` message for `loadChatRoom`. public/js/chat.js defines it
      only inside the block comment at lines 85-200, and no other script of the page
      is taken to define it, so the call throws. */
  const MsgNoLoader: string := "loadChatRoom is not defined"

  /** What `startChat` does with the answer. An answer without a usable room id
      alerts. A usable one pushes the room's URL, then the call to the undefined
      `loadChatRoom` throws and the catch alerts with its message. */
  function StartChatOutcome(r: Response): (a: ClientAction)
    ensures a.PushUrlThenAlert? || a.Alert?
    ensures a.PushUrlThenAlert? <==> IsOk(r) && TruthyId(RoomIdField(r))
    ensures a.PushUrlThenAlert? ==>
              && a.path == RoomUrl(RoomIdField(r).value)
              && a.text == MsgStartPrefix + MsgNoLoader
    ensures !IsOk(r) && Truthy(ErrorField(r)) ==> a == Alert(MsgStartPrefix + ErrorField(r).value)
    ensures !IsOk(r) && !Truthy(ErrorField(r)) ==> a == Alert(MsgStartPrefix + MsgStartDefault)
    ensures IsOk(r) && !TruthyId(RoomIdField(r)) ==> a == Alert(MsgStartPrefix + MsgNoRoomId)
  {
    if !IsOk(r) then
      var error := ErrorField(r);
      Alert(MsgStartPrefix + if Truthy(error) then error.value else MsgStartDefault)
    else if !TruthyId(RoomIdField(r)) then Alert(MsgStartPrefix + MsgNoRoomId)
    else PushUrlThenAlert(RoomUrl(RoomIdField(r).value), MsgStartPrefix + MsgNoLoader)
  }

  /** The room id in a pushed URL reads back as the room it names. */
  lemma RoomUrlNamesRoom(roomId: int)
    ensures |RoomUrl(roomId)| > |RoomUrlPrefix|
    ensures RoomUrl(roomId)[..|RoomUrlPrefix|] == RoomUrlPrefix
    ensures ParseInt(RoomUrl(roomId)[|RoomUrlPrefix|..]) == Some(roomId)
  {
    assert RoomUrl(roomId)[|RoomUrlPrefix|..] == IntToString(roomId);
    ParseIntRoundTrip(roomId);
  }

  /** Client and server together: whenever `/chat/start` answers 200 the page
      pushes the URL of exactly the room the server resolved (room ids start at 1,
      so they are truthy) and then alerts with the `loadChatRoom` error; any other
      answer becomes an alert carrying the server's message. No answer opens the
      room in the page. */
  lemma StartChatFollowsServer(target: Chat.BodyId, session: Session, store: Store, now: string, faults: set<Step>)
    requires store.Valid()
    ensures var r := Chat.ChatStart(target, session, store, now, faults);
            && (r.response.status == 200 ==>
                  StartChatOutcome(r.response) == PushUrlThenAlert(RoomUrl(r.response.body.roomId), MsgStartPrefix + MsgNoLoader))
            && (r.response.status != 200 ==> StartChatOutcome(r.response) == Alert(MsgStartPrefix + r.response.body.text))
  {
  }
}

=== FILE: chat_props.dfy ===
/** Properties of `/chat/start` across calls: the room invariant, idempotence and
    order independence, and the inputs the `===` guard lets through. All of them
    are per sequential call; concurrent requests are outside the model. */
module ChatProps {
  import opened Common
  import opened Store
  import opened Http
  import opened Chat

  /** Each `/chat/start` call keeps "no room joins a known user with itself, at most
      one room per unordered pair of known users", for every body except one that
      spells the caller's own id as a string. */
  lemma ChatStartKeepsRoomsWellFormed(target: BodyId, session: Session, store: Store, now: string, faults: set<Step>)
    requires store.Valid() && RoomsWellFormed(store.chatRooms)
    ensures !SpellsCaller(target, session.userId) ==>
              RoomsWellFormed(ChatStart(target, session, store, now, faults).store.chatRooms)
  {
    var r := ChatStart(target, session, store, now, faults);
    if r.store != store && !SpellsCaller(target, session.userId) {
      var a := BindSession(session.userId);
      var b := BindBody(target);
      var before := store.chatRooms;
      var added := NewRoom(a, b, now);
      var rooms := r.store.chatRooms;
      assert rooms.rows == before.rows[before.next := added];
      assert ExistingRoom(before, a, b).None?;
      if Linked(added) {
        assert added.sender != added.receiver by {
          if target.JsonString? {
            assert session.userId.Some?;
          }
        }
      }
      forall i, j | i in rooms.rows && j in rooms.rows && i != j && Linked(rooms.rows[i]) && Linked(rooms.rows[j])
        ensures !SamePair(rooms.rows[i], rooms.rows[j])
      {
        if i == before.next {
          assert j in before.rows && !Joins(before.rows[j], a, b);
        } else if j == before.next {
          assert i in before.rows && !Joins(before.rows[i], a, b);
        } else {
          assert i in before.rows && j in before.rows;
        }
      }
    }
  }

  /** The exception is real: user `m` posting `{"userId": "m"}` passes the `===`
      guard and gets a room joining `m` with itself, which breaks the invariant. */
  lemma SpelledOwnIdOpensSelfRoom(m: nat, store: Store, now: string)
    requires store.Valid()
    requires ExistingRoom(store.chatRooms, SqlInt(m), SqlText(NatToString(m))).None?
    ensures var r := ChatStart(JsonString(NatToString(m)), Anonymous.(userId := Some(m)), store, now, {});
            && r.response == Response(200, ChatRoomId(store.chatRooms.next))
            && r.store.chatRooms.rows[store.chatRooms.next] == ChatRoom(SqlInt(m), SqlInt(m), now)
            && !RoomsWellFormed(r.store.chatRooms)
  {
    SqlIntegerRoundTrip(m);
    var r := ChatStart(JsonString(NatToString(m)), Anonymous.(userId := Some(m)), store, now, {});
    assert r.store.chatRooms.rows[store.chatRooms.next] == ChatRoom(SqlInt(m), SqlInt(m), now);
  }

  /** Swapping the two ids does not change which rooms join them. */
  lemma JoinsSymmetric(rooms: Table<ChatRoom>, a: SqlValue, b: SqlValue)
    requires rooms.Valid()
    ensures ExistingRoom(rooms, a, b) == ExistingRoom(rooms, b, a)
  {
    FindAgrees(rooms, (room: ChatRoom) => Joins(room, a, b), (room: ChatRoom) => Joins(room, b, a));
  }

  /** The room `/chat/start` answered with is the first room joining the pair in the
      store it leaves behind. */
  lemma ChatStartAnswerIsFirstRoom(target: BodyId, session: Session, store: Store, now: string, faults: set<Step>)
    requires store.Valid()
    requires ChatStart(target, session, store, now, faults).response.status == 200
    ensures var r := ChatStart(target, session, store, now, faults);
            ExistingRoom(r.store.chatRooms, BindSession(session.userId), BindBody(target)) == Some(r.response.body.roomId)
  {
    var r := ChatStart(target, session, store, now, faults);
    var a := BindSession(session.userId);
    var b := BindBody(target);
    if r.store != store {
      FindAfterInsert(store.chatRooms, NewRoom(a, b, now), (room: ChatRoom) => Joins(room, a, b));
    }
  }

  /** After `start(A, B)` returned room R, both `start(A, B)` and `start(B, A)` return R
      and write nothing: resolution is idempotent and order-independent. */
  lemma ChatStartStable(a: int, b: int, session: Session, store: Store, now: string, faults: set<Step>,
                        later: Session, target: int, now': string, faults': set<Step>)
    requires store.Valid() && session.userId == Some(a)
    requires ChatStart(JsonNumber(b), session, store, now, faults).response.status == 200
    requires (later.userId == Some(a) && target == b) || (later.userId == Some(b) && target == a)
    requires RoomLookup !in faults'
    ensures var r := ChatStart(JsonNumber(b), session, store, now, faults);
            ChatStart(JsonNumber(target), later, r.store, now', faults')
              == Reply(Response(200, ChatRoomId(r.response.body.roomId)), later, r.store)
  {
    var r := ChatStart(JsonNumber(b), session, store, now, faults);
    ChatStartAnswerIsFirstRoom(JsonNumber(b), session, store, now, faults);
    JoinsSymmetric(r.store.chatRooms, SqlInt(a), SqlInt(b));
  }

  /** Without a user id in the session, `===` refuses only a body with no `userId`.
      Any other body, `null` included, binds NULL as the sender, inserts a room and,
      since the re-select never matches NULL, answers 500. */
  lemma AnonymousChatStart(target: BodyId, store: Store, now: string)
    requires store.Valid()
    ensures var r := ChatStart(target, Anonymous, store, now, {});
            if target.Missing? then r.response == Fail(400, MsgSelfChat) && r.store == store
            else
              && r.response == Fail(500, MsgRoomCreate)
              && |r.store.chatRooms.rows| == |store.chatRooms.rows| + 1
              && r.store.chatRooms.rows[store.chatRooms.next] == ChatRoom(SqlNull, IntegerAffinity(BindBody(target)), now)
  {
    var r := ChatStart(target, Anonymous, store, now, {});
    if !target.Missing? {
      assert forall k :: k in store.chatRooms.rows ==> !Joins(store.chatRooms.rows[k], SqlNull, BindBody(target));
    }
  }
}

=== FILE: common.dfy ===
/** Values shared by every handler: optional JSON fields, JavaScript truthiness,
    the string operations the client code uses, and JavaScript's `parseInt`. */
module Common {

  /** An optional value: `None` stands for an absent JSON field, `undefined` or SQL NULL. */
  datatype Option<+T> = None | Some(value: T)

  /** JavaScript truthiness of a string field: absent and `""` are both falsy. */
  predicate Truthy(v: Option<string>) {
    v.Some? && v.value != ""
  }

  /** JavaScript truthiness of a numeric id: absent and `0` are both falsy. */
  predicate TruthyId(v: Option<int>) {
    v.Some? && v.value != 0
  }

  // ---------------------------------------------------------------------------
  // Letter case and substring search (String.prototype.toLowerCase / includes)
  // ---------------------------------------------------------------------------

  predicate IsUpper(c: char) {
    'A' <= c <= 'Z'
  }

  function LowerChar(c: char): char {
    if IsUpper(c) then (c as int + 32) as char else c
  }

  function Lower(s: string): (r: string)
    ensures |r| == |s|
    ensures forall i :: 0 <= i < |s| ==> r[i] == LowerChar(s[i])
  {
    if |s| == 0 then "" else [LowerChar(s[0])] + Lower(s[1..])
  }

  /** `t` occurs in `s` starting at position `i`. */
  predicate OccursAt(s: string, t: string, i: nat) {
    i + |t| <= |s| && s[i..i + |t|] == t
  }

  /** `s.includes(t)`. */
  predicate Contains(s: string, t: string) {
    exists i: nat :: i <= |s| && OccursAt(s, t, i)
  }

  lemma ContainsEmpty(s: string)
    ensures Contains(s, "")
  {
    assert OccursAt(s, "", 0);
  }

  // ---------------------------------------------------------------------------
  // Decimal rendering of numbers (template literals `${id}`)
  // ---------------------------------------------------------------------------

  predicate IsDigit(c: char) {
    '0' <= c <= '9'
  }

  predicate IsHexDigit(c: char) {
    IsDigit(c) || 'a' <= c <= 'f' || 'A' <= c <= 'F'
  }

  predicate IsDigitIn(c: char, base: nat) {
    if base == 16 then IsHexDigit(c) else IsDigit(c)
  }

  function DigitValue(c: char): nat
    requires IsHexDigit(c)
  {
    if IsDigit(c) then c as int - '0' as int
    else if 'a' <= c <= 'f' then c as int - 'a' as int + 10
    else c as int - 'A' as int + 10
  }

  function DigitChar(d: nat): (c: char)
    requires d < 10
    ensures IsDigit(c) && DigitValue(c) == d
  {
    ('0' as int + d) as char
  }

  function NatToString(n: nat): (s: string)
    ensures |s| > 0
    ensures forall i :: 0 <= i < |s| ==> IsDigit(s[i])
  {
    if n < 10 then [DigitChar(n)] else NatToString(n / 10) + [DigitChar(n % 10)]
  }

  function IntToString(n: int): string {
    if n < 0 then "-" + NatToString(-n) else NatToString(n)
  }

  // ---------------------------------------------------------------------------
  // parseInt (section 19.2.5 of ECMAScript), called without a radix
  // ---------------------------------------------------------------------------

  /** The ASCII and Latin-1 white space and line terminators `parseInt` skips. */
  predicate IsJsSpace(c: char) {
    c == ' ' || c == '\t' || c == '\n' || c == '\r' || c == '\U{000B}' || c == '\U{000C}'
    || c == '\U{00A0}' || c == '\U{FEFF}' || c == '\U{2028}' || c == '\U{2029}'
  }

  function TrimStart(s: string): (r: string)
    ensures |r| == 0 || !IsJsSpace(r[0])
  {
    if |s| > 0 && IsJsSpace(s[0]) then TrimStart(s[1..]) else s
  }

  /** The longest prefix of `s` made of digits of the given base. */
  function DigitRun(s: string, base: nat): (r: string)
    ensures |r| <= |s| && r == s[..|r|]
    ensures forall i :: 0 <= i < |r| ==> IsDigitIn(r[i], base)
    ensures |r| < |s| ==> !IsDigitIn(s[|r|], base)
  {
    if |s| == 0 || !IsDigitIn(s[0], base) then "" else [s[0]] + DigitRun(s[1..], base)
  }

  /** The value of a digit string, most significant digit first. */
  function DigitsValue(ds: string, base: nat): nat
    requires forall i :: 0 <= i < |ds| ==> IsHexDigit(ds[i])
  {
    if |ds| == 0 then 0 else DigitsValue(ds[..|ds| - 1], base) * base + DigitValue(ds[|ds| - 1])
  }

  /** The text after leading white space and one optional sign. */
  function Unsigned(s: string): string {
    var t := TrimStart(s);
    if |t| > 0 && (t[0] == '-' || t[0] == '+') then t[1..] else t
  }

  predicate HasHexPrefix(u: string) {
    |u| >= 2 && u[0] == '0' && (u[1] == 'x' || u[1] == 'X')
  }

  /** `parseInt(s)`: `None` is NaN. A `0x`/`0X` prefix selects base 16. */
  function ParseInt(s: string): (r: Option<int>)
    ensures r.Some? ==> |Unsigned(s)| > 0 && IsDigit(Unsigned(s)[0])
    // A number comes out exactly when a digit of the selected base follows the
    // white space, the sign and any `0x` prefix; `"0x"` alone is NaN.
    ensures r.Some? <==>
              if HasHexPrefix(Unsigned(s)) then |Unsigned(s)| > 2 && IsHexDigit(Unsigned(s)[2])
              else |Unsigned(s)| > 0 && IsDigit(Unsigned(s)[0])
  {
    var t := TrimStart(s);
    var negative := |t| > 0 && t[0] == '-';
    var u := Unsigned(s);
    var base := if HasHexPrefix(u) then 16 else 10;
    var digits := DigitRun(if base == 16 then u[2..] else u, base);
    if digits == "" then None
    else
      var v: int := DigitsValue(digits, base);
      Some(if negative then -v else v)
  }

  // ---------------------------------------------------------------------------
  // SQLite values and INTEGER column affinity
  // ---------------------------------------------------------------------------

  /** SQLite's INTEGER affinity applied to a text value: a string of decimal digits
      becomes the integer it spells; any other text stays text. */
  function SqlInteger(s: string): (r: Option<nat>)
    ensures r.Some? <==> |s| > 0 && forall i :: 0 <= i < |s| ==> IsDigit(s[i])
  {
    if |s| > 0 && forall i :: 0 <= i < |s| ==> IsDigit(s[i]) then Some(DigitsValue(s, 10)) else None
  }

  /** A value as SQLite binds or stores it. JavaScript `undefined` and `null` both
      bind as NULL, a number as an integer, a string as text. */
  datatype SqlValue = SqlNull | SqlInt(i: int) | SqlText(t: string)

  /** The value an INTEGER column holds after `v` is written to it, which is also
      what `v` is compared as against that column. */
  function IntegerAffinity(v: SqlValue): (r: SqlValue)
    ensures r.SqlNull? <==> v.SqlNull?
    ensures v.SqlInt? ==> r == v
    ensures v.SqlText? ==> if SqlInteger(v.t).Some? then r == SqlInt(SqlInteger(v.t).value) else r == v
  {
    match v
    case SqlText(s) => if SqlInteger(s).Some? then SqlInt(SqlInteger(s).value) else v
    case _ => v
  }

  /** `column = ?` against an INTEGER column: a NULL on either side matches nothing. */
  predicate SqlMatch(column: SqlValue, param: SqlValue) {
    !column.SqlNull? && column == IntegerAffinity(param)
  }

  // ---------------------------------------------------------------------------
  // parseInt reads back what the template literal wrote
  // ---------------------------------------------------------------------------

  lemma {:induction false} NatToStringValue(n: nat)
    ensures DigitsValue(NatToString(n), 10) == n
  {
    if n >= 10 {
      var s := NatToString(n);
      assert s[..|s| - 1] == NatToString(n / 10);
      NatToStringValue(n / 10);
    }
  }

  lemma DigitRunWhole(s: string, base: nat)
    requires forall i :: 0 <= i < |s| ==> IsDigitIn(s[i], base)
    ensures DigitRun(s, base) == s
  {
  }

  /** A run of digits of `base` stops at the first character outside the base. */
  lemma {:induction false} DigitRunStops(ds: string, rest: string, base: nat)
    requires forall i :: 0 <= i < |ds| ==> IsDigitIn(ds[i], base)
    requires |rest| == 0 || !IsDigitIn(rest[0], base)
    ensures DigitRun(ds + rest, base) == ds
  {
    if |ds| > 0 {
      assert (ds + rest)[1..] == ds[1..] + rest;
      DigitRunStops(ds[1..], rest, base);
    }
  }

  /** Leading white space is skipped up to the first other character. */
  lemma {:induction false} TrimStartSkips(lead: string, t: string)
    requires forall i :: 0 <= i < |lead| ==> IsJsSpace(lead[i])
    requires |t| == 0 || !IsJsSpace(t[0])
    ensures TrimStart(lead + t) == t
  {
    if |lead| > 0 {
      assert (lead + t)[1..] == lead[1..] + t;
      TrimStartSkips(lead[1..], t);
    }
  }

  /** Once white space and the sign are gone, a decimal `parseInt` is the value of
      the leading run of digits, negated after a minus. */
  lemma ParseIntDecimal(s: string, negative: bool, u: string)
    requires TrimStart(s) == (if negative then "-" else "") + u
    requires |u| > 0 && IsDigit(u[0]) && !HasHexPrefix(u)
    ensures DigitRun(u, 10) != ""
    ensures ParseInt(s) == Some(if negative then -(DigitsValue(DigitRun(u, 10), 10) as int)
                                else DigitsValue(DigitRun(u, 10), 10) as int)
  {
    var t := TrimStart(s);
    assert (|t| > 0 && t[0] == '-') == negative;
    assert Unsigned(s) == u by {
      if negative { assert t[1..] == u; } else { assert t == u; }
    }
  }

  /** `parseInt` reads the longest decimal prefix and ignores the rest: after
      white space and an optional minus, the digits of `n` followed by anything
      that is not a digit give `n` (so `"5abc"` is 5 and `" -12 "` is -12). A lone
      `0` followed by `x` would start a hex literal instead. */
  lemma ParseIntPrefix(lead: string, negative: bool, n: nat, rest: string)
    requires forall i :: 0 <= i < |lead| ==> IsJsSpace(lead[i])
    requires |rest| == 0 || !IsDigit(rest[0])
    requires n == 0 ==> |rest| == 0 || (rest[0] != 'x' && rest[0] != 'X')
    ensures ParseInt(lead + (if negative then "-" else "") + NatToString(n) + rest)
            == Some(if negative then -(n as int) else n as int)
  {
    var ds := NatToString(n);
    var u := ds + rest;
    var t := (if negative then "-" else "") + u;
    var s := lead + (if negative then "-" else "") + NatToString(n) + rest;
    assert s == lead + t;
    TrimStartSkips(lead, t);
    assert !HasHexPrefix(u) by {
      if n >= 10 {
        assert |NatToString(n / 10)| > 0;
        assert IsDigit(u[1]);
      }
    }
    ParseIntDecimal(s, negative, u);
    DigitRunStops(ds, rest, 10);
    NatToStringValue(n);
  }

  /** Trailing text is ignored: `"5abc"` is 5 and `" -12 "` is -12. */
  lemma ParseIntDecimalExamples()
    ensures ParseInt("5abc") == Some(5)
    ensures ParseInt(" -12 ") == Some(-12)
  {
    ParseIntPrefix("", false, 5, "abc");
    assert "" + "" + NatToString(5) + "abc" == "5abc";
    ParseIntPrefix(" ", true, 12, " ");
    assert " " + "-" + NatToString(12) + " " == " -12 ";
  }

  /** A `0x` prefix selects base 16, and `0x` with no hex digit after it is NaN. */
  lemma ParseIntHexExamples()
    ensures ParseInt("0x10") == Some(16)
    ensures ParseInt("0x") == None
  {
    assert TrimStart("0x10") == "0x10";
    assert Unsigned("0x10") == "0x10";
    assert "0x10"[2..] == "10";
    assert DigitRun("10", 16) == "10" by {
      DigitRunStops("10", "", 16);
      assert "10" + "" == "10";
    }
    assert DigitsValue("10", 16) == 16 by {
      assert "10"[..1] == "1";
      assert "1"[..0] == "";
    }
    assert TrimStart("0x") == "0x";
  }

  /** `parseInt(String(n)) == n` for every integer `n`: the decimal text of an id
      parses back to the same id. */
  lemma ParseIntRoundTrip(n: int)
    ensures ParseInt(IntToString(n)) == Some(n)
  {
    var s := IntToString(n);
    var m: nat := if n < 0 then -n else n;
    var digits := NatToString(m);
    assert !IsJsSpace(s[0]);
    assert TrimStart(s) == s;
    assert Unsigned(s) == digits;
    assert !HasHexPrefix(digits);
    DigitRunWhole(digits, 10);
    NatToStringValue(m);
  }

  /** SQLite's affinity reads a decimal id the same way. */
  lemma SqlIntegerRoundTrip(n: nat)
    ensures SqlInteger(NatToString(n)) == Some(n)
  {
    NatToStringValue(n);
  }
}

=== FILE: http.dfy ===
/** What a route handler sees and produces besides the store: the per-client
    session record, and the HTTP response it sends. */
module Http {
  import opened Common
  import opened Store

  /** `req.session`. A fresh session has every field unset; `loggedIn` unset reads
      as false in every test the handlers make. */
  datatype Session = Session(
    loggedIn: bool,
    userId: Option<int>,
    fullName: Option<string>,
    userType: Option<string>,
    role: Option<string>)

  const Anonymous: Session := Session(false, None, None, None, None)

  /** The values a rendered view receives. */
  datatype PageData =
    | Plain
    | Who(fullName: Option<string>, userType: Option<string>, role: Option<string>)
    | WithDetails(fullName: Option<string>, userType: Option<string>, role: Option<string>, details: Option<Profile>)
    | EditTarget(target: Profile)

  /** A row of `/users/list`. */
  datatype UserSummary = UserSummary(userId: nat, fullName: string, email: string)

  /** The payload of a response. `Message` covers `{error: ...}` JSON, plain
      `send(...)` text and the rendered `error` view alike. */
  datatype Body =
    | Message(text: string)
    | RedirectTo(path: string)
    | Page(view: string, data: PageData)
    | Registered(message: string, id: nat)
    | ChatRoomId(roomId: nat)
    | UserList(users: seq<UserSummary>)
    | UserRecord(userId: nat, user: UserRow)
    | ProfileRows(profiles: set<Profile>)
    | Deleted(message: string, deletedUserId: int)

  datatype Response = Response(status: nat, body: Body)

  /** Everything a handler returns: the response, the session afterwards, the store afterwards. */
  datatype Reply = Reply(response: Response, session: Session, store: Store)

  function Fail(status: nat, message: string): Response {
    Response(status, Message(message))
  }

  /** `res.redirect(path)`. */
  function Redirect(path: string): Response {
    Response(302, RedirectTo(path))
  }

  /** The view data built from the session's name, type and role. */
  function SessionWho(s: Session): PageData {
    Who(s.fullName, s.userType, s.role)
  }

  /** `response.ok`: a 2xx status. */
  predicate IsOk(r: Response) {
    200 <= r.status <= 299
  }

  /** The `error` field of a JSON answer, when it has one. */
  function ErrorField(r: Response): Option<string> {
    if r.body.Message? then Some(r.body.text) else None
  }

  /** What a client script ends up doing: follow a link, alert, or push a new URL
      onto the history and then alert. */
  datatype ClientAction = Navigate(path: string) | Alert(text: string) | PushUrlThenAlert(path: string, text: string)
}

=== FILE: scenario.dfy ===
/** The end-to-end story: a musician and a band register, the musician logs in and
    opens a chat with the band, the band opens a chat with the musician, and an
    admin deletes the musician. */
module Scenario {
  import opened Common
  import opened Store
  import opened Http
  import opened Auth
  import opened Api
  import opened Chat
  import opened Admin

  const EmptyStore: Store := Store(Table(map[], 1), Table(map[], 1), Table(map[], 1), Table(map[], 1))

  /** A stand-in for bcrypt: a hash is the password with a prefix. */
  function ToyHash(password: string): string {
    "$2b$" + password
  }

  function ToyCompare(password: string, hash: string): bool {
    hash == ToyHash(password)
  }

  function AliceForm(): SignupRequest {
    SignupRequest(Some("musician"), Some("Alice"), Some("alice@example.com"), Some("secret1"),
                  Some("Guitar"), None, None, Some("Milano"), None, None)
  }

  function RiotForm(): SignupRequest {
    SignupRequest(Some("band"), Some("Riot"), Some("riot@example.com"), Some("secret2"),
                  None, None, None, Some("Roma"), None, Some("Rock"))
  }

  const AliceRow: UserRow := UserRow("musician", "Alice", "alice@example.com", "$2b$secret1", "Milano", None)
  const RiotRow: UserRow := UserRow("band", "Riot", "riot@example.com", "$2b$secret2", "Roma", None)
  const AliceProfile: MusicianRow := MusicianRow(1, "Guitar", None, None, None, None)
  const RiotProfile: BandRow := BandRow(2, None, None, "Rock", None, None)
  const Room: ChatRoom := ChatRoom(SqlInt(1), SqlInt(2), "t1")

  const AfterAlice: Store :=
    Store(Table(map[1 := AliceRow], 2), Table(map[1 := AliceProfile], 2), Table(map[], 1), Table(map[], 1))
  const AfterRiot: Store :=
    Store(Table(map[1 := AliceRow, 2 := RiotRow], 3), Table(map[1 := AliceProfile], 2),
          Table(map[1 := RiotProfile], 2), Table(map[], 1))
  const AfterChat: Store := AfterRiot.(chatRooms := Table(map[1 := Room], 2))
  const AfterDelete: Store := AfterChat.(users := Table(map[2 := RiotRow], 3))

  const AliceSession: Session := Session(true, Some(1), Some("Alice"), Some("musician"), None)
  const RiotSession: Session := Anonymous.(loggedIn := true, userId := Some(2))

  lemma AliceRegisters()
    ensures Signup(AliceForm(), Anonymous, EmptyStore, true, ToyHash("secret1"), {})
            == Reply(Response(200, Registered(MsgMusicianOk, 1)), Anonymous, AfterAlice)
  {
    assert FieldsPresent(AliceForm());
    assert SignupRejection(AliceForm(), true).None?;
    assert UserByEmail(EmptyStore.users, "alice@example.com").None?;
    assert NewUser(AliceForm(), ToyHash("secret1")) == AliceRow;
    assert NewMusician(AliceForm(), 1) == AliceProfile;
  }

  lemma RiotRegisters()
    ensures Signup(RiotForm(), Anonymous, AfterAlice, true, ToyHash("secret2"), {})
            == Reply(Response(200, Registered(MsgBandOk, 2)), Anonymous, AfterRiot)
  {
    assert FieldsPresent(RiotForm());
    assert SignupRejection(RiotForm(), true).None?;
    assert UserByEmail(AfterAlice.users, "riot@example.com").None?;
    assert NewUser(RiotForm(), ToyHash("secret2")) == RiotRow;
    assert NewBand(RiotForm(), 2) == RiotProfile;
  }

  lemma AliceLogsIn()
    ensures Login(Some(Credentials(Some("alice@example.com"), Some("secret1"))), Anonymous, AfterRiot, ToyCompare, {}).session
            == AliceSession
  {
    assert UserByEmail(AfterRiot.users, "alice@example.com") == Some(1);
  }

  lemma AliceOpensRoom()
    ensures ChatStart(JsonNumber(2), AliceSession, AfterRiot, "t1", {})
            == Reply(Response(200, ChatRoomId(1)), AliceSession, AfterChat)
  {
    assert ExistingRoom(AfterRiot.chatRooms, SqlInt(1), SqlInt(2)).None?;
    assert AfterRiot.chatRooms.Insert(Room) == AfterChat.chatRooms;
    assert CreatedRoom(AfterChat.chatRooms, SqlInt(1), SqlInt(2)) == Some(1);
  }

  lemma RiotFindsSameRoom()
    ensures ChatStart(JsonNumber(1), RiotSession, AfterChat, "t2", {})
            == Reply(Response(200, ChatRoomId(1)), RiotSession, AfterChat)
  {
    assert ExistingRoom(AfterChat.chatRooms, SqlInt(2), SqlInt(1)) == Some(1);
  }

  lemma AdminDeletesAlice(admin: Session)
    requires admin.role == Some(AdminRole)
    ensures DeleteUser("1", admin, AfterChat, {}).response.status == 200
    ensures DeleteUser("1", admin, AfterChat, {}).store == AfterDelete
  {
    ParseIntRoundTrip(1);
    assert IntToString(1) == "1";
    assert AfterChat.users.rows - {1} == map[2 := RiotRow];
  }

  /** Alice gets id 1 and Riot id 2; Alice's login binds her session to id 1; the two
      `/chat/start` calls, in opposite directions, resolve to the same room 1; and
      deleting Alice removes her USERS row but, with the cascade commented out,
      leaves her MUSICIANS row and the chat room in place. */
  lemma RegisterChatDelete(admin: Session)
    requires admin.role == Some(AdminRole)
    ensures var s1 := Signup(AliceForm(), Anonymous, EmptyStore, true, ToyHash("secret1"), {});
            var s2 := Signup(RiotForm(), Anonymous, s1.store, true, ToyHash("secret2"), {});
            var login := Login(Some(Credentials(Some("alice@example.com"), Some("secret1"))), Anonymous, s2.store, ToyCompare, {});
            var c1 := ChatStart(JsonNumber(2), login.session, s2.store, "t1", {});
            var c2 := ChatStart(JsonNumber(1), RiotSession, c1.store, "t2", {});
            var d := DeleteUser("1", admin, c2.store, {});
            && s1.response == Response(200, Registered(MsgMusicianOk, 1))
            && s2.response == Response(200, Registered(MsgBandOk, 2))
            && login.session.userId == Some(1)
            && c1.response == c2.response == Response(200, ChatRoomId(1))
            && c2.store == c1.store
            && d.response.status == 200
            && 1 !in d.store.users.rows && 2 in d.store.users.rows
            && 1 in d.store.musicians.rows
            && d.store.chatRooms.rows[1] == Room
  {
    AliceRegisters();
    RiotRegisters();
    AliceLogsIn();
    AliceOpensRoom();
    RiotFindsSameRoom();
    AdminDeletesAlice(admin);
  }
}

=== FILE: signup_client.dfy ===
/** The client half of registration (public/js/signup.js): the request payload the
    form submit handler builds, and what it does with the answer. */
module SignupClient {
  import opened Common
  import opened Store
  import opened Http
  import Api

  /** The `.value` of each form control; a control's value is always a string. */
  datatype SignupForm = SignupForm(
    userType: string,
    name: string,
    email: string,
    password: string,
    instrument: string,
    skillLevel: string,
    description: string,
    lookingFor: string,
    location: string,
    genre: string)

  /** The JSON object sent to `/signup`. */
  datatype SignupPayload = SignupPayload(
    userType: string,
    fullName: string,
    email: string,
    password: string,
    instrument: string,
    skillLevel: string,
    experience: string,
    description: string,
    lookingFor: string,
    location: string,
    genre: string)

  /** The payload: the musician-only fields are blank unless the type is "musician",
      the band-only fields blank unless it is "band", the rest copied through. */
  function BuildPayload(f: SignupForm): (p: SignupPayload)
    ensures p.userType == f.userType && p.fullName == f.name && p.email == f.email
    ensures p.password == f.password && p.description == f.description && p.location == f.location
    ensures p.experience == p.skillLevel
    ensures p.instrument == (if f.userType == "musician" then f.instrument else "")
    ensures p.skillLevel == (if f.userType == "musician" then f.skillLevel else "")
    ensures p.genre == (if f.userType == "band" then f.genre else "")
    ensures p.lookingFor == (if f.userType == "band" then f.lookingFor else "")
  {
    var musician := f.userType == "musician";
    var band := f.userType == "band";
    var instrument := if musician then f.instrument else "";
    var skillLevel := if musician then f.skillLevel else "";
    var lookingFor := if band then f.lookingFor else "";
    var genre := if band then f.genre else "";
    SignupPayload(f.userType, f.name, f.email, f.password, instrument, skillLevel, skillLevel,
                  f.description, lookingFor, f.location, genre)
  }

  /** The payload as the server reads `req.body`: every field present. */
  function AsRequest(p: SignupPayload): Api.SignupRequest {
    Api.SignupRequest(Some(p.userType), Some(p.fullName), Some(p.email), Some(p.password),
                      Some(p.instrument), Some(p.experience), Some(p.description),
                      Some(p.location), Some(p.lookingFor), Some(p.genre))
  }

  const MsgSignupPrefix: string := "Errore durante la registrazione: "
  const MsgNetwork: string := "Errore durante la registrazione. Verifica la connessione al server."

  /** What the submit handler does with the answer; `None` is a `fetch` that
      rejected. `${errorData.error}` prints an absent field as "undefined". */
  function SignupOutcome(answer: Option<Response>): (a: ClientAction)
    ensures answer.None? ==> a == Alert(MsgNetwork)
    ensures a == Navigate("/login") <==> answer.Some? && IsOk(answer.value)
    ensures answer.Some? && !IsOk(answer.value) ==>
              a == Alert(MsgSignupPrefix + (if ErrorField(answer.value).Some? then ErrorField(answer.value).value else "undefined"))
  {
    match answer
    case None => Alert(MsgNetwork)
    case Some(r) =>
      if IsOk(r) then Navigate("/login")
      else
        var error := ErrorField(r);
        Alert(MsgSignupPrefix + if error.Some? then error.value else "undefined")
  }

  /** A band form never trips the server's instrument check, whatever its instrument
      control holds. */
  lemma BandFormNeedsNoInstrument(f: SignupForm, session: Session, store: Store,
                                  emailValid: bool, hashed: string, faults: set<Step>)
    requires store.Valid() && f.userType == "band"
    ensures Api.Signup(AsRequest(BuildPayload(f)), session, store, emailValid, hashed, faults).response
            != Fail(400, Api.MsgNeedInstrument)
  {
  }

  /** Client and server together: the page moves on to /login exactly when the
      registration was stored, and otherwise shows the server's own message. */
  lemma SignupFollowsServer(f: SignupForm, session: Session, store: Store,
                            emailValid: bool, hashed: string, faults: set<Step>)
    requires store.Valid()
    ensures var r := Api.Signup(AsRequest(BuildPayload(f)), session, store, emailValid, hashed, faults);
            && (SignupOutcome(Some(r.response)) == Navigate("/login") <==> r.response.status == 200)
            && (r.response.status != 200 ==> SignupOutcome(Some(r.response)) == Alert(MsgSignupPrefix + r.response.body.text))
  {
  }

  /** A complete musician form, with a valid email and a new address, registers a
      musician whose profile row carries the instrument and the skill level. */
  lemma MusicianFormRegisters(f: SignupForm, session: Session, store: Store, hashed: string)
    requires store.Valid() && f.userType == "musician"
    requires f.name != "" && f.email != "" && |f.password| >= 6 && f.location != "" && f.instrument != ""
    requires UserByEmail(store.users, f.email).None?
    ensures var r := Api.Signup(AsRequest(BuildPayload(f)), session, store, true, hashed, {});
            && r.response == Response(200, Registered(Api.MsgMusicianOk, store.users.next))
            && r.store.musicians.rows[store.musicians.next]
               == MusicianRow(store.users.next, f.instrument, Some(f.skillLevel), Some(f.description), None, None)
  {
  }
}

=== FILE: store.dfy ===
/** The relational store the route handlers use, as an immutable value: the four
    tables USERS, MUSICIANS, BANDS and CHAT_ROOMS, each a map from row id to row.
    Row ids are handed out by a counter that is above every id in the table, which
    stands for SQLite's fresh `rowid`. */
module Store {
  import opened Common

  datatype Table<R> = Table(rows: map<nat, R>, next: nat) {

    /** Every row id is positive (SQLite starts at 1) and below the counter. */
    predicate Valid() {
      1 <= next && forall k :: k in rows ==> 1 <= k < next
    }

    /** `INSERT`: the new row gets the fresh id `next`. */
    function Insert(row: R): (t: Table<R>)
      requires Valid()
      ensures t.Valid()
      ensures next !in rows && t.rows == rows[next := row]
      ensures |t.rows| == |rows| + 1
      ensures t.next == next + 1
    {
      Table(rows[next := row], next + 1)
    }
  }

  /** A USERS row. `role` is not written by registration, so it holds whatever the
      column default is (`None`). */
  datatype UserRow = UserRow(
    userType: string,
    fullName: string,
    email: string,
    password: string,
    location: string,
    role: Option<string>)

  /** A MUSICIANS row; `fullName` and `email` are only ever written by the admin edit. */
  datatype MusicianRow = MusicianRow(
    userId: nat,
    instrument: string,
    experience: Option<string>,
    description: Option<string>,
    fullName: Option<string>,
    email: Option<string>)

  /** A BANDS row; `fullName` and `email` are only ever written by the admin edit. */
  datatype BandRow = BandRow(
    userId: nat,
    description: Option<string>,
    lookingFor: Option<string>,
    genre: string,
    fullName: Option<string>,
    email: Option<string>)

  /** A CHAT_ROOMS row. The two id columns hold whatever the handler bound from the
      session and the request body, after the columns' INTEGER affinity: NULL, an
      integer, or text that does not spell one. */
  datatype ChatRoom = ChatRoom(sender: SqlValue, receiver: SqlValue, createdAt: string)

  /** A profile row together with its id and the table it came from. */
  datatype Profile = MusicianProfile(id: nat, musician: MusicianRow) | BandProfile(id: nat, band: BandRow)

  datatype Store = Store(
    users: Table<UserRow>,
    musicians: Table<MusicianRow>,
    bands: Table<BandRow>,
    chatRooms: Table<ChatRoom>)
  {
    predicate Valid() {
      users.Valid() && musicians.Valid() && bands.Valid() && chatRooms.Valid()
    }
  }

  /** The store calls a handler makes. A handler receives the set of calls that
      report an error in this run. */
  datatype Step =
    | HashPassword     // bcrypt.hash throws
    | EmailCheck       // SELECT email FROM USERS
    | UserInsert       // INSERT INTO users
    | ProfileInsert    // INSERT INTO MUSICIANS / BANDS
    | UserLookup       // SELECT * FROM USERS WHERE email = ?
    | PasswordCompare  // bcrypt.compare throws
    | DetailsLookup    // SELECT * FROM MUSICIANS / BANDS WHERE user_id = ?
    | ListUsers        // SELECT ... FROM USERS WHERE user_id != ?
    | RoomLookup       // SELECT * FROM CHAT_ROOMS (either order)
    | RoomInsert       // INSERT INTO CHAT_ROOMS
    | RoomReselect     // SELECT chat_room_id FROM CHAT_ROOMS (sender, receiver)
    | ListProfiles     // SELECT * FROM musicians UNION SELECT * FROM bands
    | UserFetch        // SELECT * FROM users WHERE user_id = ?
    | Begin            // BEGIN TRANSACTION
    | DeleteRow        // DELETE FROM USERS WHERE user_id = ?
    | Commit           // COMMIT
    | FeedbackFetch    // SELECT * FROM feedback
    | EditFetch        // SELECT ... FROM musicians UNION ... FROM bands
    | EditUpdate       // UPDATE musicians / bands

  /** The first id in `[from, bound)` whose row satisfies `p`: how `db.get` picks
      the row it returns when several match. */
  function FirstKey<R>(rows: map<nat, R>, p: R -> bool, from: nat, bound: nat): (r: Option<nat>)
    decreases bound - from
    ensures r.Some? ==> from <= r.value < bound && r.value in rows && p(rows[r.value])
    ensures r.Some? ==> forall k :: from <= k < r.value && k in rows ==> !p(rows[k])
    ensures r.None? ==> forall k :: from <= k < bound && k in rows ==> !p(rows[k])
  {
    if from >= bound then None
    else if from in rows && p(rows[from]) then Some(from)
    else FirstKey(rows, p, from + 1, bound)
  }

  /** `db.get(SELECT ... WHERE p)`: the matching row with the smallest id, if any. */
  function Find<R>(t: Table<R>, p: R -> bool): (r: Option<nat>)
    requires t.Valid()
    ensures r.Some? ==> r.value in t.rows && p(t.rows[r.value])
    ensures r.Some? ==> forall k :: k < r.value && k in t.rows ==> !p(t.rows[k])
    ensures r.None? <==> forall k :: k in t.rows ==> !p(t.rows[k])
  {
    FirstKey(t.rows, p, 1, t.next)
  }

  /** Two predicates that agree on every row pick the same row. */
  lemma {:induction false} FirstKeyAgrees<R>(rows: map<nat, R>, p: R -> bool, q: R -> bool, from: nat, bound: nat)
    requires forall k :: k in rows ==> p(rows[k]) == q(rows[k])
    ensures FirstKey(rows, p, from, bound) == FirstKey(rows, q, from, bound)
    decreases bound - from
  {
    if from < bound {
      FirstKeyAgrees(rows, p, q, from + 1, bound);
    }
  }

  lemma FindAgrees<R>(t: Table<R>, p: R -> bool, q: R -> bool)
    requires t.Valid()
    requires forall k :: k in t.rows ==> p(t.rows[k]) == q(t.rows[k])
    ensures Find(t, p) == Find(t, q)
  {
    FirstKeyAgrees(t.rows, p, q, 1, t.next);
  }

  /** After an insert into a table with no matching row, the new row is the one found. */
  lemma FindAfterInsert<R>(t: Table<R>, row: R, p: R -> bool)
    requires t.Valid() && Find(t, p).None? && p(row)
    ensures Find(t.Insert(row), p) == Some(t.next)
  {
    var t' := t.Insert(row);
    assert p(t'.rows[t.next]);
    assert forall k :: k in t'.rows && k != t.next ==> k in t.rows && t'.rows[k] == t.rows[k];
  }

  /** `SELECT * FROM users WHERE email = ?`. */
  function UserByEmail(users: Table<UserRow>, email: string): (r: Option<nat>)
    requires users.Valid()
    ensures r.Some? ==> r.value in users.rows && users.rows[r.value].email == email
    ensures r.None? <==> forall k :: k in users.rows ==> users.rows[k].email != email
  {
    Find(users, (u: UserRow) => u.email == email)
  }

  /** Every profile row points at a user id the USERS counter has already handed
      out, so a fresh user id has no profile row yet. */
  predicate ProfilesPointBack(store: Store) {
    && (forall k :: k in store.musicians.rows ==> store.musicians.rows[k].userId < store.users.next)
    && (forall k :: k in store.bands.rows ==> store.bands.rows[k].userId < store.users.next)
  }

  /** No two USERS rows share an email (what the registration check aims at). */
  predicate EmailsUnique(users: Table<UserRow>) {
    forall i, j :: i in users.rows && j in users.rows && i != j ==> users.rows[i].email != users.rows[j].email
  }
}
